=== FILE: README.md ===
# Layout orchestration of the xstate visualizer's state graph

This project is a Dafny model of the layout orchestration in `src/Graph.tsx` of the
xstate visualizer. The visualizer draws a hierarchical state machine as a nested
directed graph: states contain child states, and transitions (edges) may cross nesting
levels or loop back onto their own state. Before the layout engine (ELK) is called, and
after it returns, three pure steps run. The model covers those three steps and proves
properties about them.

1. **Edge scoping** (`getAllEdges`, `getRelativeNodeEdgeMap` with its inner `getLCA`).
   Every edge in the state tree is collected in pre-order. Each edge is given a
   "lowest common ancestor" scope. The edges are then put into buckets by scope, and an
   inverse map from edge identifier to scope is built.
2. **Layout request building** (`getElkEdge`, `getPortId`, `getSelfPortId`,
   `getElkChild`, `getElkChildren`, and the synthetic root assembled in `getElkGraph`).
   The request tree mirrors the state tree one-to-one. Every request node has:
   - one port per back edge, followed by exactly one self port;
   - the edges of its scope bucket;
   - padding;
   - for leaves only, a measured size.
3. **Coordinate translation** (`setEdgeLayout`, `setLayout` and the root-edge pass in
   `getElkGraph`). The engine's result tree is walked in pre-order. Each state is
   registered with its absolute origin, which is its parent's origin plus its own
   offset. Each state's layout record is written. Every edge's route points and label
   are shifted by the absolute origin of the edge's scope.

Modules, in dependency order:

| file | module | models |
|---|---|---|
| `wrappers.dfy` | `Wrappers` | `Option` (JavaScript `undefined`) and `Result` (a thrown error) |
| `state_tree.dfy` | `StateTree` | `StateNode.parent` and `StateNode.machine` as an arena keyed by state id |
| `edge_scope.dfy` | `EdgeScope` | `getLCA` |
| `digraph.dfy` | `Digraph` | `DirectedGraphNode`, `DirectedGraphEdge`, `getAllEdges` |
| `scope_assign.dfy` | `ScopeAssign` | `getRelativeNodeEdgeMap` |
| `layout_request.dfy` | `LayoutRequest` | request tree building |
| `translate.dfy` | `Translate` | translation of the engine's result |

Modelling choices:

- States are addressed by string identifiers. The source keys its maps by `StateNode`
  object identity; the model keys them by identifier.
- The parent relation is a map. A proof-only `rank` map witnesses that it has no
  cycles. `a.machine` is the `machine` field of the hierarchy.
- The scope key is `RootScope | NodeScope(id)`. `RootScope` is the source's `undefined`
  key.
- These inputs are plain maps:
  - the rect provider (`getRect` / `readRect`): element id to measured rect;
  - the back-link index (`getBackLinkMap`): state id to back-edge ids, in iteration order;
  - the edge-to-scope map handed to translation.
- The engine's result is an input tree (`ResultRoot` / `ResultNode` / `ResultEdge`).
  Every node below the synthetic root is a state node. Coordinates are `int`s, and only
  addition is involved.
- Translation is a pure function. It returns the registered absolute origins, the
  per-state layout records and the per-edge layout records (`Walk`). It does not
  mutate shared objects. A later write to the same key replaces an earlier one, as the
  source's assignments do.
- Two of the source's throw conditions in `getElkGraph` are modelled. The model turns
  them into `Failure` results:
  - an empty label list, where `labels?.[0].x` throws;
  - a synthetic root without a child, where `children![0]` is `undefined`.

## Model

| member | source | states |
|---|---|---|
| StateTree.StrictAncestors | src/Graph.tsx:75-80 | The walk `m = a.parent; while (m) m = m.parent` lists only states that rank strictly below `a`, and it is empty exactly when `a` has no parent. |
| EdgeScope.FirstMember | src/Graph.tsx:82-89 | Returns the first position on the chain whose state is in the set; `None` exactly when no state of the chain is in the set. |
| EdgeScope.Lca | src/Graph.tsx:68-92 | The implicit root is chosen exactly for a self-loop on a state that has no parent. Any other self-loop gets the state's parent. For distinct endpoints the result is either the machine or a state that is both a strict ancestor of the source and on the target's inclusive chain. |
| EdgeScope.LcaIsLowestCommonAncestor | src/Graph.tsx:73-91 | For distinct endpoints with a common ancestor (a strict ancestor of the source that is on the target's inclusive chain), the scope is such an ancestor and lies below every other one. With no common ancestor, the scope is the machine. |
| EdgeScope.LcaOfTargetAncestor | src/Graph.tsx:82-87 | An edge into one of the source's strict ancestors is scoped to that ancestor. |
| EdgeScope.LcaOfSourceAncestor | src/Graph.tsx:73-91 | An edge from a state into one of its strict descendants is scoped to the source's parent, or to the machine when the source has no parent. It is scoped to the source itself exactly when the source is the parentless machine state. |
| EdgeScope.LcaSymmetricWhenUnrelated | src/Graph.tsx:73-91 | When neither endpoint is an ancestor of the other, reversing the edge does not change its scope. |
| EdgeScope.LcaNotSymmetricForNestedEndpoints | src/Graph.tsx:68-91 | For a non-top state `a` and a descendant `b`, `a→b` is scoped to `a.parent` and `b→a` to `a`, so the two scopes differ. |
| EdgeScope.LcaFindsCommonAncestorInMachine | src/Graph.tsx:73-91 | Take one machine whose root state is above every other state. If the source has a parent, the machine fallback on line 91 is never what decides: the scope is a genuine common ancestor. |
| EdgeScope.SiblingEdgeIsScopedToMachine | src/Graph.tsx:68-91 | Take two children `A` and `B` of the machine state `M`. The edge `A→B` is scoped to `M`, while a self-loop on `M` is scoped to the implicit root. |
| Digraph.GetAllEdges | src/Graph.tsx:48-58 | The accumulator walk returns the reference pre-order list: a node's own edges, then each child subtree's edges, in child order. |
| Digraph.CollectIsPreorder | src/Graph.tsx:50-54 | `getEdgesRecursive` appends exactly the subtree's pre-order edges to whatever has been pushed so far. |
| Digraph.AllEdgesMembership | src/Graph.tsx:48-58 | An edge is collected if and only if it is declared at some node of the tree. |
| ScopeAssign.Assign | src/Graph.tsx:94-103 | Bucket `s` exists exactly when some edge has scope `s`. The bucket equals the reference filter of the edge list by scope, in input order. |
| ScopeAssign.EdgeScopeKeys | src/Graph.tsx:102 | The inverse map has an entry for exactly the identifiers of the edges. |
| ScopeAssign.EdgeScopeIsLastWrite | src/Graph.tsx:102 | An identifier maps to the scope of the last edge that carries it. |
| ScopeAssign.RelativeNodeEdgeMap | src/Graph.tsx:60-106 | Each bucket is the pre-order edge list of the whole tree filtered by that scope. |
| ScopeAssign.InScopeAppend | src/Graph.tsx:94-101 | Filtering by scope distributes over concatenation, so a bucket keeps the relative order of the collected edges. |
| ScopeAssign.InScopeMembership | src/Graph.tsx:94-101 | A bucket holds exactly the collected edges of its scope. |
| ScopeAssign.BucketsPartitionEdges | src/Graph.tsx:94-103 | Every edge is in the bucket keyed by its scope, with the multiplicity it has in the input, and occurs in no other bucket. |
| ScopeAssign.EdgeScopeNamesBucket | src/Graph.tsx:94-103 | With distinct edge identifiers, `edgeMap[edge.id]` names a bucket that contains the edge. |
| ScopeAssign.EveryGraphEdgeIsBucketed | src/Graph.tsx:60-106 | Every edge declared anywhere in the state tree lands in the bucket of its scope. |
| LayoutRequest.PortIdInjective | src/Graph.tsx:139-141 | Distinct edges get distinct `port:` identifiers. |
| LayoutRequest.SelfPortIdInjective | src/Graph.tsx:143-145 | Distinct states get distinct `self:` identifiers. |
| LayoutRequest.PortIdsNeverClash | src/Graph.tsx:139-145 | A back-edge port identifier never equals a self port identifier. |
| LayoutRequest.LabelText | src/Graph.tsx:126 | The label text is the edge's own text when that is non-empty, and `always` when it is empty. |
| LayoutRequest.ElkEdge | src/Graph.tsx:108-137 | An ordinary edge goes from `[source]` to `["port:" + id]`. A self-loop goes from `[target]` to `["self:" + target]`. There is exactly one label, `id + "--label"`. Its size is 0×100 when unmeasured and the measured size otherwise. Its text is the edge's text, or `always` when that is empty. |
| LayoutRequest.Ports | src/Graph.tsx:171-187 | For k back edges there are k+1 ports, all 5×5. Port i is `"port:" + backEdges[i]`, and the last is the self port. The self-port identifier occurs at the last position only. |
| LayoutRequest.ElkChild | src/Graph.tsx:147-196 | The request node has the state's id and the same child ids in order. It has a size exactly for a measured leaf, equal to the leaf's rect. It carries the edges of its own scope bucket (none if absent), the ports for its back edges, and the padding. |
| LayoutRequest.ElkChildMirrors | src/Graph.tsx:147-205 | At every depth, the request tree has the same ids and child order as the state tree. |
| LayoutRequest.ElkRequest | src/Graph.tsx:241-249 | The synthetic root has id `root` and carries exactly the root-scoped edges, in collection order. Its only child is the machine's request node (`ElkChild` with the tree's scope buckets), so it carries the machine's own bucket, ports and padding, and it mirrors the whole state tree. |
| LayoutRequest.RootEdgesAreTopSelfLoops | src/Graph.tsx:243-246 | Every edge on the synthetic root is a self-loop on a state that has no parent, addressed to that state's self port. |
| LayoutRequest.EdgeTargetPortExists | src/Graph.tsx:110-114 | The port an edge is addressed to exists on its target's request node. For a self-loop this always holds. For an ordinary edge it holds when the back-link index lists that edge for the target. |
| LayoutRequest.RequestEdgeCarriesItsScope | src/Graph.tsx:154 | With distinct edge identifiers, every edge a request node carries has that node's state as its recorded scope in the inverse map. |
| Translate.ShiftSectionsCompose | src/Graph.tsx:259-280 | Shifting by `a` and then by `b` is the same as shifting by `a + b`. |
| Translate.ShiftSectionsInverse | src/Graph.tsx:259-280 | Shifting back by the opposite offset restores every point. Only a missing bend list comes back as the empty list. |
| Translate.EdgeLayoutFor | src/Graph.tsx:259-286 | The edge's translation fails exactly when its label list is empty. Without an origin the sections are unchanged; with one they are shifted. The label is `(x or 0, y or 0)` plus the origin, or plus nothing when there is no origin. |
| Translate.SetEdgeLayout | src/Graph.tsx:255-287 | Succeeds exactly when the label list is usable. It changes only the record of this edge, and that record is the translation against the states registered so far. |
| Translate.SetEdgeLayoutsSucceeds | src/Graph.tsx:306-308 | The pass over a node's edges fails exactly when one of them has an empty label list. |
| Translate.SetEdgeLayoutsPlace | src/Graph.tsx:306-308 | With distinct identifiers, each edge's record is its translation against the states registered before the pass. |
| Translate.SetLayoutSucceeds | src/Graph.tsx:289-315 | Walking a subtree fails exactly when one of its edges has an empty label list. |
| Translate.SetLayoutKeepsStates | src/Graph.tsx:289-315 | Walking a subtree writes origins and layout records only for its own states. Every other state's entries are unchanged. |
| Translate.SetLayoutKeepsEdges | src/Graph.tsx:289-315 | Walking a subtree writes edge records only for its own edges. Every other edge's record is unchanged. |
| Translate.WalkAbsolute | src/Graph.tsx:293-304 | With distinct state ids, each state's origin is the parent origin plus the sum of the relative offsets along its path. Its layout record holds its size and its relative offset. |
| Translate.WalkPlacesEdge | src/Graph.tsx:293-314 | With distinct ids, an edge attached at its scope state or below it is shifted by that state's absolute origin. A state is registered before its edges are translated and before its children are visited. |
| Translate.WalkUsesRegisteredScope | src/Graph.tsx:255-287 | With distinct edge identifiers in the subtree, an edge whose scope was registered before the subtree walk, and lies outside the subtree, is shifted by that registered origin. |
| Translate.GetElkGraphLayoutSucceeds | src/Graph.tsx:317-321 | The pass succeeds exactly when there is a root child and no translated edge has an empty label list. Without a root child, and with usable root edges, the error is `NoRootChild`. |
| Translate.AbsoluteOriginIsPathSum | src/Graph.tsx:289-321 | Every state's absolute origin is the sum of the relative offsets from the machine's node down to it. Its layout record keeps its relative offset. |
| Translate.ChildOriginComposes | src/Graph.tsx:294-297 | A state's absolute origin is its parent's absolute origin plus its own relative offset. |
| Translate.ScopedEdgeIsShifted | src/Graph.tsx:255-321 | After the whole pass, an edge attached at or below its scope state has its sections and label shifted by that state's absolute origin. |
| Translate.RootEdgesKeepEngineCoordinates | src/Graph.tsx:317 | Root-level edges are translated before any state is registered, so their sections are unchanged and their label is the engine's raw position. |

## Behaviour of the code that a reader might not expect

- **Scope symmetry.** A symmetric rule would give `a→b` and `b→a` the same scope for
  distinct endpoints. The code does so when neither endpoint is an ancestor of the
  other (`EdgeScope.LcaSymmetricWhenUnrelated`). It also does so when the ancestor is
  the parentless machine state: both directions are then scoped to the machine. For a
  state `a` that has a parent and a descendant `b`, `a→b` is scoped to `a.parent` but
  `b→a` is scoped to `a` (`EdgeScope.LcaNotSymmetricForNestedEndpoints`).
- **The implicit root.** A rule that falls back to the implicit root would place an
  edge between two children of the machine there. In the code, such an edge is scoped
  to the machine's root state (`EdgeScope.SiblingEdgeIsScopedToMachine`). The code's
  fallback when no common ancestor is found is `a.machine`, a state, not the implicit
  root. The implicit root is reached only by a self-loop on a state with no parent
  (`EdgeScope.Lca`).
- **Self-loop endpoints.** A self-loop's request edge runs from the state node itself
  (`sources` is `[edge.target.id]`, src/Graph.tsx:113) into the state's self port. Its
  source is not a port. `LayoutRequest.ElkEdge` states exactly this.
- **Back links.** The back-link collection for a state is built outside this core.
  The model takes it as a sequence in iteration order, with one port per element, as
  the code's `Array.from(...).map` does (src/Graph.tsx:155, 171-179).

## Left out

- The React components `GraphNode` and `Graph`, and the `memo` wrappers
  (src/Graph.tsx:220-222, 326-380): rendering, pan and zoom.
- The ELK instance, its layout options and the `elk.layout` call (src/Graph.tsx:24-41,
  251): the engine is an external solver. Its output is an input tree of the model, and
  a solver failure is not modelled.
- `sleep` and the `onRect` wait (src/Graph.tsx:224-239): timers and DOM settling.
- `getRect`, `readRect`, `onRect` and `deleteRect`: DOM measurement, replaced by an
  input map. `getBackLinkMap` is not part of this model; its result is an input map.
- `isStateElkNode` (src/Graph.tsx:216-218): the result tree is typed, so every child is
  a state node.
- Constant option strings: the `layoutOptions` of nodes, labels and the root
  (`hierarchyHandling`, `elk.spacing.labelLabel`, label placement). The request records
  padding only, as numbers, not as the option string.
- The `node` / `edge` back-references and the placeholder fields: request `sections: []`,
  `absolutePosition: {x: 0, y: 0}`, and the extra section fields copied by `...section`.
- The returned root node's `absolutePosition` fields: they are the `abs` map of the
  `Walk`.
- Concurrent layout passes and their last-write-wins mutation of shared state. Writes
  made before a thrown error are not kept either: a failing pass returns only the error.
- JavaScript numbers: coordinates and sizes are integers. Engine results always carry
  `x`, `y`, `width` and `height`. A missing `edges` or `children` is modelled as
  empty, as the source's `?.forEach` guards treat it (src/Graph.tsx:306, 310, 317).
- A missing `sections` list on a result edge. A `ResultEdge` always carries a section
  list. The source's `edge.sections.map` throws on a missing list when the edge's
  scope is registered (src/Graph.tsx:260), and copies `undefined` otherwise
  (src/Graph.tsx:280-282). Neither case is modelled.
- LayoutRequest.ElkChild: an unmeasured leaf gets no size, the same as a composite
  state. The source sets `width` and `height` to `undefined`, which the engine treats
  the same as absent.
- LayoutRequest.LabelText: a missing label text is modelled as the empty string. Both
  are falsy for `||`.
- Translate.WalkAbsolute: proved only for result trees with distinct state ids. With
  duplicates, the source's map keeps the last registration, and so does the model's
  `SetLayout`.
- Translate.WalkUsesRegisteredScope: stated for subtrees whose edge identifiers are
  distinct. A later edge with the same identifier gets the same scope from the inverse
  map, and its record overwrites the earlier one, as the source's assignment does.
- Translate.AbsoluteOriginIsPathSum: proved only for distinct state ids, for the same
  reason as `WalkAbsolute`.
- Translate.ChildOriginComposes: proved only for distinct state ids, for the same
  reason as `WalkAbsolute`.
- Translate.ScopedEdgeIsShifted: stated for edges the engine returns at or below their
  scope state, with distinct state and edge ids. Edges the engine returns elsewhere are
  translated by the same rule, but no separate lemma characterises them.
- Translate.WalkPlacesEdge: the same restriction as `ScopedEdgeIsShifted`.
- Translate.RootEdgesKeepEngineCoordinates: stated for root edges whose identifiers are distinct and do not occur again inside the machine's subtree. Otherwise a later write in the subtree replaces the root edge's record.
- Determinism across repeated passes is not stated as a lemma: every operation of the
  model is a function, so equal inputs give equal outputs.

=== FILE: digraph.dfy ===
/** The directed-graph view of a state machine (`DirectedGraphNode` and
    `DirectedGraphEdge`) and the collection of all of its edges (`getAllEdges`). */
module Digraph {
  import opened StateTree

  type EdgeId = string

  /** A transition: its identifier, the identifiers of its source and target
      states, and the text of its label. */
  datatype Edge = Edge(id: EdgeId, source: Id, target: Id, labelText: string)

  /** A state with its nested states, in order, and the edges declared at it. */
  datatype GraphNode = GraphNode(id: Id, children: seq<GraphNode>, edges: seq<Edge>)

  /** `m` is `n` or a node nested somewhere inside it. */
  predicate InSubtree(m: GraphNode, n: GraphNode)
    decreases n
  {
    m == n || exists i :: 0 <= i < |n.children| && InSubtree(m, n.children[i])
  }

  /** Reference definition: a node's own edges, then the edges of each child
      subtree, children in order (pre-order). */
  function PreorderEdges(n: GraphNode): seq<Edge>
    decreases n, 1, 0
  {
    n.edges + ChildrenEdges(n, 0)
  }

  /** The pre-order edges of the children of `n` from position `i` on. */
  function ChildrenEdges(n: GraphNode, i: nat): seq<Edge>
    requires i <= |n.children|
    decreases n, 0, |n.children| - i
  {
    if i == |n.children| then [] else PreorderEdges(n.children[i]) + ChildrenEdges(n, i + 1)
  }

  /** The source's `getEdgesRecursive`: push the node's own edges onto the
      accumulator `acc`, then recurse into each child in turn. */
  function Collect(acc: seq<Edge>, n: GraphNode): seq<Edge>
    decreases n, 1, 0
  {
    CollectChildren(acc + n.edges, n, 0)
  }

  /** The `children.forEach(getEdgesRecursive)` loop, from child `i` on. */
  function CollectChildren(acc: seq<Edge>, n: GraphNode, i: nat): seq<Edge>
    requires i <= |n.children|
    decreases n, 0, |n.children| - i
  {
    if i == |n.children| then acc else CollectChildren(Collect(acc, n.children[i]), n, i + 1)
  }

  /** `getAllEdges`: start from an empty accumulator. */
  function GetAllEdges(root: GraphNode): (r: seq<Edge>)
    ensures r == PreorderEdges(root)
  {
    CollectIsPreorder([], root);
    Collect([], root)
  }

  /** The accumulator walk appends exactly the pre-order edges of the subtree. */
  lemma {:induction false} CollectIsPreorder(acc: seq<Edge>, n: GraphNode)
    ensures Collect(acc, n) == acc + PreorderEdges(n)
    decreases n, 1, 0
  {
    CollectChildrenIsPreorder(acc + n.edges, n, 0);
  }

  lemma {:induction false} CollectChildrenIsPreorder(acc: seq<Edge>, n: GraphNode, i: nat)
    requires i <= |n.children|
    ensures CollectChildren(acc, n, i) == acc + ChildrenEdges(n, i)
    decreases n, 0, |n.children| - i
  {
    if i < |n.children| {
      CollectIsPreorder(acc, n.children[i]);
      CollectChildrenIsPreorder(Collect(acc, n.children[i]), n, i + 1);
    }
  }

  /** Every edge of every node of the tree is collected, and nothing else is. */
  lemma {:induction false} AllEdgesMembership(root: GraphNode, e: Edge)
    ensures e in GetAllEdges(root) <==> exists m :: InSubtree(m, root) && e in m.edges
  {
    PreorderMembership(root, e);
  }

  lemma {:induction false} PreorderMembership(n: GraphNode, e: Edge)
    ensures e in PreorderEdges(n) <==> exists m :: InSubtree(m, n) && e in m.edges
    decreases n, 1, 0
  {
    ChildrenMembership(n, 0, e);
    if e in PreorderEdges(n) && e !in n.edges {
      var i :| 0 <= i < |n.children| && e in PreorderEdges(n.children[i]);
      PreorderMembership(n.children[i], e);
      var m :| InSubtree(m, n.children[i]) && e in m.edges;
      assert InSubtree(m, n);
    }
    if exists m :: InSubtree(m, n) && e in m.edges {
      var m :| InSubtree(m, n) && e in m.edges;
      if m != n {
        var i :| 0 <= i < |n.children| && InSubtree(m, n.children[i]);
        PreorderMembership(n.children[i], e);
      }
    }
  }

  lemma {:induction false} ChildrenMembership(n: GraphNode, i: nat, e: Edge)
    requires i <= |n.children|
    ensures e in ChildrenEdges(n, i) <==> exists j :: i <= j < |n.children| && e in PreorderEdges(n.children[j])
    decreases |n.children| - i
  {
    if i < |n.children| {
      ChildrenMembership(n, i + 1, e);
    }
  }
}

=== FILE: edge_scope.dfy ===
/** The scope ("lowest common ancestor") rule that decides at which level of the
    nesting hierarchy an edge is laid out: `getLCA` inside `getRelativeNodeEdgeMap`. */
module EdgeScope {
  import opened Wrappers
  import opened StateTree

  /** The key of a scope bucket: a state, or the implicit root above the machine
      (the `undefined` key of the source's map). */
  datatype Scope = RootScope | NodeScope(id: Id)

  /** Index of the first element of `s` that belongs to `found`, if any. */
  function FirstMember(s: seq<Id>, found: set<Id>): (r: Option<nat>)
    ensures r.Some? ==> r.value < |s| && s[r.value] in found
    ensures r.Some? ==> forall j :: 0 <= j < r.value ==> s[j] !in found
    ensures r.None? <==> forall j :: 0 <= j < |s| ==> s[j] !in found
  {
    if s == [] then None
    else if s[0] in found then Some(0)
    else match FirstMember(s[1..], found)
      case None => None
      case Some(i) => Some(i + 1)
  }

  /** The strict ancestors of `a` as a set: the `set` filled by `getLCA`'s first loop. */
  function AncestorSet(h: Hierarchy, a: Id): (r: set<Id>)
    requires h.Valid()
    ensures forall x :: x in r <==> x in StrictAncestors(h, a)
    decreases h.Rank(a)
  {
    if a in h.parent then {h.parent[a]} + AncestorSet(h, h.parent[a]) else {}
  }

  /** The scope of an edge from `a` to `b`. A self-loop belongs to the state's
      parent; otherwise the first state on `b`'s inclusive chain that is a
      strict ancestor of `a`; failing that, the machine's root state. */
  function Lca(h: Hierarchy, a: Id, b: Id): (r: Scope)
    requires h.Valid()
    ensures r == RootScope <==> a == b && a !in h.parent
    ensures a == b && a in h.parent ==> r == NodeScope(h.parent[a])
    ensures a != b && r.id != h.machine ==> r.id in StrictAncestors(h, a) && r.id in Chain(h, b)
  {
    if a == b then
      if a in h.parent then NodeScope(h.parent[a]) else RootScope
    else
      var above := AncestorSet(h, a);
      var chain := Chain(h, b);
      match FirstMember(chain, above)
      case Some(i) => NodeScope(chain[i])
      case None => NodeScope(h.machine)
  }

  /** For distinct endpoints, `Lca` picks the lowest state that is both a strict
      ancestor of the source and an ancestor-or-self of the target: every other
      such state lies above it. When no such state exists it falls back to the
      machine. */
  lemma {:induction false} LcaIsLowestCommonAncestor(h: Hierarchy, a: Id, b: Id, x: Id)
    requires h.Valid()
    requires a != b
    ensures x in StrictAncestors(h, a) && x in Chain(h, b) ==>
      Lca(h, a, b).id in StrictAncestors(h, a) && Lca(h, a, b).id in Chain(h, b) &&
      x in Chain(h, Lca(h, a, b).id)
    ensures (forall y :: y in StrictAncestors(h, a) ==> y !in Chain(h, b)) ==>
      Lca(h, a, b) == NodeScope(h.machine)
  {
    var above := AncestorSet(h, a);
    var chain := Chain(h, b);
    if x in StrictAncestors(h, a) && x in chain {
      var k :| 0 <= k < |chain| && chain[k] == x;
      assert chain[k] in above;
      var i := FirstMember(chain, above).value;
      assert i <= k;
      ChainTailMembership(h, b, i, k);
    }
  }

  /** An edge into one of the source's strict ancestors is scoped to that ancestor. */
  lemma {:induction false} LcaOfTargetAncestor(h: Hierarchy, a: Id, b: Id)
    requires h.Valid()
    requires b in StrictAncestors(h, a)
    ensures Lca(h, a, b) == NodeScope(b)
  {
    StrictAncestorIrreflexive(h, a);
    var above := AncestorSet(h, a);
    assert Chain(h, b)[0] in above;
  }

  /** An edge from a state into one of its strict descendants is scoped to the
      source's parent: only strict ancestors of the source are candidates. A
      source without a parent falls back to the machine, so the source itself is
      the scope only when it is the machine state. */
  lemma {:induction false} LcaOfSourceAncestor(h: Hierarchy, a: Id, b: Id)
    requires h.Valid()
    requires a in StrictAncestors(h, b)
    ensures Lca(h, a, b) == if a in h.parent then NodeScope(h.parent[a]) else NodeScope(h.machine)
    ensures Lca(h, a, b) == NodeScope(a) <==> a == h.machine && a !in h.parent
  {
    StrictAncestorIrreflexive(h, b);
    if a in h.parent {
      assert h.Rank(h.parent[a]) < h.Rank(a);
    }
    var above := AncestorSet(h, a);
    var chain := Chain(h, b);
    var k := SourcePosition(h, a, b);
    var r := FirstMember(chain, above);
    if a in h.parent {
      assert chain[k + 1] == Chain(h, a)[1] == h.parent[a];
      assert chain[k + 1] in above;
      assert r.Some? && r.value == k + 1;
    } else {
      assert |chain| == k + 1;
      assert r.None?;
    }
  }

  /** Where a strict ancestor `a` of `b` sits on `b`'s chain: from there on the
      chain is `a`'s own chain, and nothing up to there is above `a`. */
  lemma {:induction false} SourcePosition(h: Hierarchy, a: Id, b: Id) returns (k: nat)
    requires h.Valid()
    requires a in StrictAncestors(h, b)
    ensures 1 <= k < |Chain(h, b)| && Chain(h, b)[k] == a
    ensures Chain(h, b)[k..] == Chain(h, a)
    ensures forall j :: 0 <= j <= k ==> Chain(h, b)[j] !in AncestorSet(h, a)
  {
    var chain := Chain(h, b);
    assert chain[1..] == StrictAncestors(h, b);
    k :| 1 <= k < |chain| && chain[k] == a;
    NotAboveUpTo(h, b, k, AncestorSet(h, a));
    ChainSuffix(h, b, k);
  }

  /** Nothing on `b`'s chain up to and including position `k` is a strict
      ancestor of the state at position `k`. */
  lemma {:induction false} NotAboveUpTo(h: Hierarchy, b: Id, k: nat, above: set<Id>)
    requires h.Valid()
    requires k < |Chain(h, b)|
    requires above == AncestorSet(h, Chain(h, b)[k])
    ensures forall j :: 0 <= j <= k ==> Chain(h, b)[j] !in above
  {
    forall j | 0 <= j <= k
      ensures Chain(h, b)[j] !in above
    {
      if j < k {
        ChainRanksDecrease(h, b, j, k);
      }
    }
  }

  /** For endpoints neither of which is an ancestor of the other, the scope does not
      depend on the edge's direction. */
  lemma {:induction false} LcaSymmetricWhenUnrelated(h: Hierarchy, a: Id, b: Id)
    requires h.Valid()
    requires a != b
    requires a !in StrictAncestors(h, b) && b !in StrictAncestors(h, a)
    ensures Lca(h, a, b) == Lca(h, b, a)
  {
    var common := exists y :: y in StrictAncestors(h, a) && y in StrictAncestors(h, b);
    if common {
      var y :| y in StrictAncestors(h, a) && y in StrictAncestors(h, b);
      LcaIsLowestCommonAncestor(h, a, b, y);
      LcaIsLowestCommonAncestor(h, b, a, y);
      var m1 := Lca(h, a, b).id;
      var m2 := Lca(h, b, a).id;
      assert m1 in StrictAncestors(h, b);
      assert m2 in StrictAncestors(h, a);
      LcaIsLowestCommonAncestor(h, a, b, m2);
      LcaIsLowestCommonAncestor(h, b, a, m1);
      ChainAntisymmetric(h, m1, m2);
    } else {
      LcaIsLowestCommonAncestor(h, a, b, a);
      LcaIsLowestCommonAncestor(h, b, a, b);
    }
  }

  /** The rule is not symmetric: an edge from a non-top state down into one of its
      descendants and the reverse edge land in different scopes. */
  lemma {:induction false} LcaNotSymmetricForNestedEndpoints(h: Hierarchy, a: Id, b: Id)
    requires h.Valid()
    requires a in StrictAncestors(h, b) && a in h.parent
    ensures Lca(h, a, b) == NodeScope(h.parent[a])
    ensures Lca(h, b, a) == NodeScope(a)
    ensures Lca(h, a, b) != Lca(h, b, a)
  {
    LcaOfSourceAncestor(h, a, b);
    LcaOfTargetAncestor(h, b, a);
  }

  /** In a single machine whose root state is above every other state, the
      machine fallback is never taken for a source below the root: the scope is
      then a genuine common ancestor. */
  lemma {:induction false} LcaFindsCommonAncestorInMachine(h: Hierarchy, a: Id, b: Id)
    requires h.Valid()
    requires forall n :: n in h.parent ==> h.machine in StrictAncestors(h, n)
    requires a != b && a in h.parent
    requires b == h.machine || b in h.parent
    ensures Lca(h, a, b).NodeScope?
    ensures Lca(h, a, b).id in StrictAncestors(h, a) && Lca(h, a, b).id in Chain(h, b)
  {
    LcaIsLowestCommonAncestor(h, a, b, h.machine);
  }

  /** Two sibling states of the machine: an edge between them is scoped to the
      machine's root state, not to the implicit root above it. */
  lemma {:induction false} SiblingEdgeIsScopedToMachine()
    ensures var h := Hierarchy(map["A" := "M", "B" := "M"], "M", map["A" := 1, "B" := 1]);
      Lca(h, "A", "B") == NodeScope("M") && Lca(h, "M", "M") == RootScope
  {
    var h := Hierarchy(map["A" := "M", "B" := "M"], "M", map["A" := 1, "B" := 1]);
    assert StrictAncestors(h, "A") == ["M"];
    assert Chain(h, "B") == ["B", "M"];
  }
}

=== FILE: layout_request.dfy ===
/** Building the layout request tree handed to the layout engine: `getElkEdge`,
    `getPortId`, `getSelfPortId`, `getElkChild`, `getElkChildren` and the
    synthetic root assembled in `getElkGraph`. */
module LayoutRequest {
  import opened Wrappers
  import opened StateTree
  import opened EdgeScope
  import opened Digraph
  import opened ScopeAssign

  /** A measured width and height, as the rect provider reports it. */
  datatype Rect = Rect(width: int, height: int)

  /** The rect provider's current measurements, keyed by element identifier
      (`getRect` / `readRect`); a missing key is an unmeasured element. */
  type Rects = map<string, Rect>

  /** The back-link index: for each state, the identifiers of the edges that
      reach it from outside its own subtree, in iteration order. */
  type BackLinks = map<Id, seq<EdgeId>>

  datatype Label = Label(id: string, width: int, height: int, text: string)
  datatype RequestEdge = RequestEdge(id: EdgeId, sources: seq<string>, targets: seq<string>, labels: seq<Label>)
  datatype Port = Port(id: string, width: int, height: int)
  datatype Padding = Padding(top: int, left: int, right: int, bottom: int)

  /** One request node per state. `size` is present only for a measured leaf. */
  datatype RequestNode = RequestNode(
    id: Id,
    size: Option<Rect>,
    children: seq<RequestNode>,
    edges: seq<RequestEdge>,
    ports: seq<Port>,
    padding: Padding)

  /** The synthetic root scope wrapping the machine's request node. */
  datatype RequestRoot = RequestRoot(id: string, edges: seq<RequestEdge>, children: seq<RequestNode>)

  const PortSize: int := 5
  const Margin: int := 30
  const DefaultLabelWidth: int := 0
  const DefaultLabelHeight: int := 100
  const DefaultLabelText: string := "always"
  const RootId: string := "root"

  /** `getPortId`: the port an ordinary edge enters its target through. */
  function PortId(e: EdgeId): string {
    "port:" + e
  }

  /** `getSelfPortId`: the single self-loop port of a state. */
  function SelfPortId(n: Id): string {
    "self:" + n
  }

  /** Distinct edges get distinct back-edge ports. */
  lemma {:induction false} PortIdInjective(a: EdgeId, b: EdgeId)
    ensures PortId(a) == PortId(b) <==> a == b
  {
    if PortId(a) == PortId(b) {
      assert a == PortId(a)[5..] == PortId(b)[5..] == b;
    }
  }

  /** Distinct states get distinct self ports. */
  lemma {:induction false} SelfPortIdInjective(a: Id, b: Id)
    ensures SelfPortId(a) == SelfPortId(b) <==> a == b
  {
    if SelfPortId(a) == SelfPortId(b) {
      assert a == SelfPortId(a)[5..] == SelfPortId(b)[5..] == b;
    }
  }

  /** A back-edge port never has the identifier of a self port. */
  lemma {:induction false} PortIdsNeverClash(e: EdgeId, n: Id)
    ensures PortId(e) != SelfPortId(n)
  {
    assert PortId(e)[0] == 'p' && SelfPortId(n)[0] == 's';
  }

  function LabelWidth(rects: Rects, e: Edge): int {
    if e.id in rects then rects[e.id].width else DefaultLabelWidth
  }

  function LabelHeight(rects: Rects, e: Edge): int {
    if e.id in rects then rects[e.id].height else DefaultLabelHeight
  }

  /** `edge.label.text || 'always'`: the empty text is replaced. */
  function LabelText(e: Edge): (r: string)
    ensures r != ""
    ensures e.labelText == "" ==> r == DefaultLabelText
    ensures e.labelText != "" ==> r == e.labelText
  {
    if e.labelText == "" then DefaultLabelText else e.labelText
  }

  /** `getElkEdge`: an ordinary edge runs from its source state into the
      target's back-edge port for this edge; a self-loop runs from the state
      into its own self port. Each edge carries one label placeholder, sized
      from the label's measurement when there is one. */
  function ElkEdge(rects: Rects, e: Edge): (r: RequestEdge)
    ensures r.id == e.id
    ensures |r.sources| == 1 && |r.targets| == 1
    ensures e.source != e.target ==> r.sources[0] == e.source && r.targets[0] == PortId(e.id)
    ensures e.source == e.target ==> r.sources[0] == e.target && r.targets[0] == SelfPortId(e.target)
    ensures |r.labels| == 1 && r.labels[0].id == e.id + "--label"
    ensures e.id !in rects ==> r.labels[0].width == 0 && r.labels[0].height == 100
    ensures e.id in rects ==> r.labels[0].width == rects[e.id].width && r.labels[0].height == rects[e.id].height
    ensures r.labels[0].text == LabelText(e)
  {
    var isSelf := e.source == e.target;
    RequestEdge(
      e.id,
      if isSelf then [e.target] else [e.source],
      if isSelf then [SelfPortId(e.target)] else [PortId(e.id)],
      [Label(e.id + "--label", LabelWidth(rects, e), LabelHeight(rects, e), LabelText(e))])
  }

  /** `edges.map(getElkEdge)`. */
  function ElkEdges(rects: Rects, es: seq<Edge>): (r: seq<RequestEdge>)
    ensures |r| == |es|
    ensures forall i :: 0 <= i < |es| ==> r[i] == ElkEdge(rects, es[i])
  {
    seq(|es|, i requires 0 <= i < |es| => ElkEdge(rects, es[i]))
  }

  function BackEdgesOf(back: BackLinks, n: Id): seq<EdgeId> {
    if n in back then back[n] else []
  }

  function BucketOf(maps: ScopeMaps, s: Scope): seq<Edge> {
    if s in maps.buckets then maps.buckets[s] else []
  }

  /** One back-edge port per back edge, in order, then the state's self port. */
  function Ports(backEdges: seq<EdgeId>, n: Id): (r: seq<Port>)
    ensures |r| == |backEdges| + 1
    ensures forall i :: 0 <= i < |backEdges| ==> r[i] == Port(PortId(backEdges[i]), PortSize, PortSize)
    ensures r[|backEdges|] == Port(SelfPortId(n), PortSize, PortSize)
    ensures forall i :: 0 <= i < |r| ==> (r[i].id == SelfPortId(n) <==> i == |backEdges|)
  {
    var r := seq(|backEdges|, i requires 0 <= i < |backEdges| => Port(PortId(backEdges[i]), PortSize, PortSize))
      + [Port(SelfPortId(n), PortSize, PortSize)];
    forall i | 0 <= i < |backEdges|
      ensures r[i].id != SelfPortId(n)
    {
      PortIdsNeverClash(backEdges[i], n);
    }
    r
  }

  /** Padding: the measured content height plus the margin on top, the margin
      on the other three sides. */
  function NodePadding(rects: Rects, n: Id): (r: Padding)
    ensures r.left == r.right == r.bottom == Margin
    ensures r.top - Margin == if n + ":content" in rects then rects[n + ":content"].height else 0
  {
    var content := n + ":content";
    Padding((if content in rects then rects[content].height else 0) + Margin, Margin, Margin, Margin)
  }

  /** `getElkChild`: the request node of one state, recursively. */
  function ElkChild(maps: ScopeMaps, back: BackLinks, rects: Rects, g: GraphNode): (r: RequestNode)
    ensures r.id == g.id
    ensures |r.children| == |g.children|
    ensures forall i :: 0 <= i < |g.children| ==> r.children[i].id == g.children[i].id
    ensures r.size.Some? <==> g.children == [] && g.id in rects
    ensures r.size.Some? ==> r.size.value == rects[g.id]
    ensures r.edges == ElkEdges(rects, BucketOf(maps, NodeScope(g.id)))
    ensures r.ports == Ports(BackEdgesOf(back, g.id), g.id)
    ensures r.padding == NodePadding(rects, g.id)
    decreases g, 1
  {
    RequestNode(
      g.id,
      if g.children == [] && g.id in rects then Some(rects[g.id]) else None,
      ElkChildren(maps, back, rects, g),
      ElkEdges(rects, BucketOf(maps, NodeScope(g.id))),
      Ports(BackEdgesOf(back, g.id), g.id),
      NodePadding(rects, g.id))
  }

  /** `getElkChildren`: the request nodes of a state's children, in order. */
  function ElkChildren(maps: ScopeMaps, back: BackLinks, rects: Rects, g: GraphNode): (r: seq<RequestNode>)
    ensures |r| == |g.children|
    ensures forall i :: 0 <= i < |g.children| ==> r[i] == ElkChild(maps, back, rects, g.children[i])
    decreases g, 0
  {
    seq(|g.children|, i requires 0 <= i < |g.children| => ElkChild(maps, back, rects, g.children[i]))
  }

  /** The request tree has the shape of the state tree: same identifiers, same
      child order, at every depth. */
  predicate Mirrors(r: RequestNode, g: GraphNode)
    decreases g
  {
    && r.id == g.id
    && |r.children| == |g.children|
    && forall i :: 0 <= i < |g.children| ==> Mirrors(r.children[i], g.children[i])
  }

  lemma {:induction false} ElkChildMirrors(maps: ScopeMaps, back: BackLinks, rects: Rects, g: GraphNode)
    ensures Mirrors(ElkChild(maps, back, rects, g), g)
    decreases g
  {
    var r := ElkChild(maps, back, rects, g);
    forall i | 0 <= i < |g.children|
      ensures Mirrors(r.children[i], g.children[i])
    {
      ElkChildMirrors(maps, back, rects, g.children[i]);
    }
  }

  /** The request assembled by `getElkGraph`: the edges scoped to the implicit
      root sit on the synthetic root, whose only child is the machine's request node. */
  function ElkRequest(h: Hierarchy, back: BackLinks, rects: Rects, root: GraphNode): (r: RequestRoot)
    requires h.Valid()
    ensures r.id == RootId
    ensures |r.children| == 1 && Mirrors(r.children[0], root)
    ensures r.children == [ElkChild(RelativeNodeEdgeMap(h, root), back, rects, root)]
    ensures |r.edges| == |InScope(h, PreorderEdges(root), RootScope)|
    ensures forall i :: 0 <= i < |r.edges| ==>
      r.edges[i] == ElkEdge(rects, InScope(h, PreorderEdges(root), RootScope)[i])
  {
    var maps := RelativeNodeEdgeMap(h, root);
    ElkChildMirrors(maps, back, rects, root);
    RequestRoot(RootId, ElkEdges(rects, BucketOf(maps, RootScope)), [ElkChild(maps, back, rects, root)])
  }

  /** Only self-loops on a state without a parent (the machine itself) reach
      the synthetic root, and each is addressed to that state's self port. */
  lemma {:induction false} RootEdgesAreTopSelfLoops(h: Hierarchy, back: BackLinks, rects: Rects, root: GraphNode, i: nat)
    requires h.Valid()
    requires i < |ElkRequest(h, back, rects, root).edges|
    ensures var e := InScope(h, PreorderEdges(root), RootScope)[i];
      && e.source == e.target && e.source !in h.parent
      && ElkRequest(h, back, rects, root).edges[i].sources == [e.target]
      && ElkRequest(h, back, rects, root).edges[i].targets == [SelfPortId(e.target)]
  {
    var bucket := InScope(h, PreorderEdges(root), RootScope);
    InScopeMembership(h, PreorderEdges(root), RootScope, bucket[i]);
  }

  /** Every port an edge is addressed to exists on the request node of its target
      state: a self-loop's self port always, an ordinary edge's port whenever the
      back-link index lists the edge for that state. */
  lemma {:induction false} EdgeTargetPortExists(maps: ScopeMaps, back: BackLinks, rects: Rects, t: GraphNode, e: Edge)
    requires e.target == t.id
    requires e.source == e.target || e.id in BackEdgesOf(back, t.id)
    ensures exists k ::
      && 0 <= k < |ElkChild(maps, back, rects, t).ports|
      && ElkChild(maps, back, rects, t).ports[k].id == ElkEdge(rects, e).targets[0]
  {
    var ports := ElkChild(maps, back, rects, t).ports;
    var backEdges := BackEdgesOf(back, t.id);
    if e.source == e.target {
      assert ports[|backEdges|].id == SelfPortId(t.id);
    } else {
      var k :| 0 <= k < |backEdges| && backEdges[k] == e.id;
      assert ports[k].id == PortId(e.id);
    }
  }

  /** With distinct edge identifiers, every edge a request node carries is
      recorded in the inverse map with that node's state as its scope, which is
      what the translation pass looks up to shift it. */
  lemma {:induction false} RequestEdgeCarriesItsScope(h: Hierarchy, back: BackLinks, rects: Rects, root: GraphNode, g: GraphNode, i: nat)
    requires h.Valid()
    requires forall a, b :: 0 <= a < b < |PreorderEdges(root)| ==> PreorderEdges(root)[a].id != PreorderEdges(root)[b].id
    requires i < |ElkChild(RelativeNodeEdgeMap(h, root), back, rects, g).edges|
    ensures var maps := RelativeNodeEdgeMap(h, root);
      var id := ElkChild(maps, back, rects, g).edges[i].id;
      id in maps.edgeScope && maps.edgeScope[id] == NodeScope(g.id)
  {
    var all := PreorderEdges(root);
    var maps := RelativeNodeEdgeMap(h, root);
    var s := NodeScope(g.id);
    var bucket := BucketOf(maps, s);
    assert bucket == InScope(h, all, s);
    var e := bucket[i];
    InScopeMembership(h, all, s, e);
    var j :| 0 <= j < |all| && all[j] == e;
    EdgeScopeIsLastWrite(h, all, j);
  }
}

=== FILE: scope_assign.dfy ===
/** Bucketing of all edges by scope (`getRelativeNodeEdgeMap`): a map from scope
    to the edges laid out at that scope, and the inverse map from edge identifier
    to scope. */
module ScopeAssign {
  import opened StateTree
  import opened EdgeScope
  import opened Digraph

  /** The source's `RelativeNodeEdgeMap` pair. */
  datatype ScopeMaps = ScopeMaps(buckets: map<Scope, seq<Edge>>, edgeScope: map<EdgeId, Scope>)

  function ScopeOf(h: Hierarchy, e: Edge): Scope
    requires h.Valid()
  {
    Lca(h, e.source, e.target)
  }

  /** Reference definition: the edges of `es` whose scope is `s`, in their order in `es`. */
  function InScope(h: Hierarchy, es: seq<Edge>, s: Scope): seq<Edge>
    requires h.Valid()
    decreases |es|
  {
    if es == [] then []
    else
      var e := es[|es| - 1];
      InScope(h, es[..|es| - 1], s) + (if ScopeOf(h, e) == s then [e] else [])
  }

  /** The `edges.forEach` loop: each edge, in turn, is appended to the bucket of
      its scope (creating the bucket on first use) and its scope is recorded under
      its identifier, a later edge with the same identifier overwriting an
      earlier one. */
  function Assign(h: Hierarchy, es: seq<Edge>): (r: ScopeMaps)
    requires h.Valid()
    ensures forall s :: s in r.buckets <==> InScope(h, es, s) != []
    ensures forall s :: s in r.buckets ==> r.buckets[s] == InScope(h, es, s)
    decreases |es|
  {
    if es == [] then ScopeMaps(map[], map[])
    else
      var prev := Assign(h, es[..|es| - 1]);
      var e := es[|es| - 1];
      var s := ScopeOf(h, e);
      var bucket := if s in prev.buckets then prev.buckets[s] else [];
      ScopeMaps(prev.buckets[s := bucket + [e]], prev.edgeScope[e.id := s])
  }

  /** The inverse map has an entry for exactly the identifiers of the edges. */
  lemma {:induction false} EdgeScopeKeys(h: Hierarchy, es: seq<Edge>, id: EdgeId)
    requires h.Valid()
    ensures id in Assign(h, es).edgeScope <==> exists j :: 0 <= j < |es| && es[j].id == id
    decreases |es|
  {
    if es != [] {
      var init := es[..|es| - 1];
      EdgeScopeKeys(h, init, id);
      if exists j :: 0 <= j < |es| && es[j].id == id {
        var j :| 0 <= j < |es| && es[j].id == id;
        if j < |es| - 1 {
          assert init[j].id == id;
        }
      }
    }
  }

  /** An identifier is mapped to the scope of the last edge carrying it. */
  lemma {:induction false} EdgeScopeIsLastWrite(h: Hierarchy, es: seq<Edge>, j: nat)
    requires h.Valid()
    requires j < |es|
    requires forall k :: j < k < |es| ==> es[k].id != es[j].id
    ensures es[j].id in Assign(h, es).edgeScope
    ensures Assign(h, es).edgeScope[es[j].id] == ScopeOf(h, es[j])
    decreases |es|
  {
    if j < |es| - 1 {
      EdgeScopeIsLastWrite(h, es[..|es| - 1], j);
    }
  }

  /** `getRelativeNodeEdgeMap`: bucket every edge of the graph, in `getAllEdges` order. */
  function RelativeNodeEdgeMap(h: Hierarchy, root: GraphNode): (r: ScopeMaps)
    requires h.Valid()
    ensures forall s :: s in r.buckets ==> r.buckets[s] == InScope(h, PreorderEdges(root), s)
  {
    Assign(h, GetAllEdges(root))
  }

  /** Filtering by scope distributes over concatenation, so edges keep their
      relative order inside a bucket. */
  lemma {:induction false} InScopeAppend(h: Hierarchy, xs: seq<Edge>, ys: seq<Edge>, s: Scope)
    requires h.Valid()
    ensures InScope(h, xs + ys, s) == InScope(h, xs, s) + InScope(h, ys, s)
    decreases |ys|
  {
    if ys == [] {
      assert xs + ys == xs;
    } else {
      var ys' := ys[..|ys| - 1];
      assert (xs + ys)[..|xs + ys| - 1] == xs + ys';
      InScopeAppend(h, xs, ys', s);
    }
  }

  /** Each edge occurs in the bucket of its own scope exactly as often as in the
      input, and in no other bucket. */
  lemma {:induction false} InScopeMultiplicity(h: Hierarchy, es: seq<Edge>, s: Scope, e: Edge)
    requires h.Valid()
    ensures multiset(InScope(h, es, s))[e] == if ScopeOf(h, e) == s then multiset(es)[e] else 0
    decreases |es|
  {
    if es != [] {
      var init := es[..|es| - 1];
      var last := es[|es| - 1];
      InScopeMultiplicity(h, init, s, e);
      assert es == init + [last];
      CountAfterSnoc(InScope(h, init, s), init, last, e, ScopeOf(h, last) == s, ScopeOf(h, e) == s);
    }
  }

  /** One step of the count: appending `last` to the input appends it to the
      filtered list exactly when it is kept. */
  lemma {:induction false} CountAfterSnoc(kept: seq<Edge>, init: seq<Edge>, last: Edge, e: Edge, keepLast: bool, keepE: bool)
    requires multiset(kept)[e] == if keepE then multiset(init)[e] else 0
    requires last == e ==> keepLast == keepE
    ensures multiset(kept + if keepLast then [last] else [])[e]
      == if keepE then multiset(init + [last])[e] else 0
  {
    assert multiset(init + [last]) == multiset(init) + multiset{last};
    if keepLast {
      assert multiset(kept + [last]) == multiset(kept) + multiset{last};
    } else {
      assert kept + [] == kept;
    }
  }

  /** A bucket holds exactly the input edges of its scope. */
  lemma {:induction false} InScopeMembership(h: Hierarchy, es: seq<Edge>, s: Scope, e: Edge)
    requires h.Valid()
    ensures e in InScope(h, es, s) <==> e in es && ScopeOf(h, e) == s
  {
    InScopeMultiplicity(h, es, s, e);
  }

  /** The buckets partition the edges: every edge lies in the bucket keyed by its
      scope, with its full multiplicity, and in no other bucket. */
  lemma {:induction false} BucketsPartitionEdges(h: Hierarchy, es: seq<Edge>, e: Edge)
    requires h.Valid()
    ensures e in es ==> ScopeOf(h, e) in Assign(h, es).buckets
    ensures forall s :: s in Assign(h, es).buckets ==>
      multiset(Assign(h, es).buckets[s])[e] == if s == ScopeOf(h, e) then multiset(es)[e] else 0
  {
    var r := Assign(h, es);
    InScopeMultiplicity(h, es, ScopeOf(h, e), e);
    forall s | s in r.buckets
      ensures multiset(r.buckets[s])[e] == if s == ScopeOf(h, e) then multiset(es)[e] else 0
    {
      InScopeMultiplicity(h, es, s, e);
    }
  }

  /** With distinct edge identifiers, the inverse map names exactly the bucket
      that holds the edge. */
  lemma {:induction false} EdgeScopeNamesBucket(h: Hierarchy, es: seq<Edge>, j: nat)
    requires h.Valid()
    requires j < |es|
    requires forall k, l :: 0 <= k < l < |es| ==> es[k].id != es[l].id
    ensures es[j].id in Assign(h, es).edgeScope
    ensures var s := Assign(h, es).edgeScope[es[j].id];
      s in Assign(h, es).buckets && es[j] in Assign(h, es).buckets[s]
  {
    EdgeScopeIsLastWrite(h, es, j);
    BucketsPartitionEdges(h, es, es[j]);
  }

  /** Every edge declared anywhere in the state tree lands in the bucket of its scope. */
  lemma {:induction false} EveryGraphEdgeIsBucketed(h: Hierarchy, root: GraphNode, m: GraphNode, e: Edge)
    requires h.Valid()
    requires InSubtree(m, root) && e in m.edges
    ensures ScopeOf(h, e) in RelativeNodeEdgeMap(h, root).buckets
    ensures e in RelativeNodeEdgeMap(h, root).buckets[ScopeOf(h, e)]
  {
    AllEdgesMembership(root, e);
    InScopeMembership(h, PreorderEdges(root), ScopeOf(h, e), e);
  }
}

=== FILE: state_tree.dfy ===
/** The nesting hierarchy of a state machine's states (xstate's `StateNode.parent`
    and `StateNode.machine`), kept as an arena keyed by state identifier. */
module StateTree {

  type Id = string

  /** `parent` maps every non-top state to the state that contains it; `machine`
      is the machine's root state. `rank` is a proof-only witness that parent
      links never form a cycle: a parent always has a smaller rank. */
  datatype Hierarchy = Hierarchy(parent: map<Id, Id>, machine: Id, ghost rank: map<Id, nat>)
  {
    ghost function Rank(n: Id): nat {
      if n in rank then rank[n] else 0
    }

    /** Every parent link goes strictly down in rank, so every chain is finite. */
    ghost predicate Valid() {
      forall n :: n in parent ==> Rank(parent[n]) < Rank(n)
    }
  }

  /** `a.parent`, `a.parent.parent`, ... up to the top: the strict ancestors of `a`,
      nearest first. */
  function StrictAncestors(h: Hierarchy, a: Id): (r: seq<Id>)
    requires h.Valid()
    ensures forall x :: x in r ==> h.Rank(x) < h.Rank(a)
    ensures r == [] <==> a !in h.parent
    decreases h.Rank(a)
  {
    if a in h.parent then [h.parent[a]] + StrictAncestors(h, h.parent[a]) else []
  }

  /** `b`, `b.parent`, ... up to the top: the inclusive ancestor chain of `b`. */
  function Chain(h: Hierarchy, b: Id): (r: seq<Id>)
    requires h.Valid()
    ensures |r| >= 1 && r[0] == b
    ensures forall x :: x in r ==> x == b || h.Rank(x) < h.Rank(b)
  {
    [b] + StrictAncestors(h, b)
  }

  /** No state is its own strict ancestor. */
  lemma {:induction false} StrictAncestorIrreflexive(h: Hierarchy, a: Id)
    requires h.Valid()
    ensures a !in StrictAncestors(h, a)
  {
  }

  /** Ranks fall strictly along an ancestor chain, so its elements are distinct
      and ordered from the state outwards. */
  lemma {:induction false} ChainRanksDecrease(h: Hierarchy, b: Id, j: nat, k: nat)
    requires h.Valid()
    requires j < k < |Chain(h, b)|
    ensures h.Rank(Chain(h, b)[k]) < h.Rank(Chain(h, b)[j])
    decreases h.Rank(b)
  {
    var c := Chain(h, b);
    assert b in h.parent;
    var p := h.parent[b];
    assert c[1..] == Chain(h, p);
    if j == 0 {
      assert c[k] in StrictAncestors(h, b);
    } else {
      ChainRanksDecrease(h, p, j - 1, k - 1);
    }
  }

  /** The tail of an ancestor chain starting at one of its elements is that
      element's own chain. */
  lemma {:induction false} ChainSuffix(h: Hierarchy, b: Id, i: nat)
    requires h.Valid()
    requires i < |Chain(h, b)|
    ensures Chain(h, b)[i..] == Chain(h, Chain(h, b)[i])
    decreases i
  {
    if i > 0 {
      var p := h.parent[b];
      assert Chain(h, b)[1..] == Chain(h, p);
      ChainSuffix(h, p, i - 1);
      assert Chain(h, b)[i..] == Chain(h, p)[i - 1..];
    }
  }

  /** An element of `b`'s chain has every later element of that chain in its own chain. */
  lemma {:induction false} ChainTailMembership(h: Hierarchy, b: Id, i: nat, k: nat)
    requires h.Valid()
    requires i <= k < |Chain(h, b)|
    ensures Chain(h, b)[k] in Chain(h, Chain(h, b)[i])
  {
    ChainSuffix(h, b, i);
    assert Chain(h, b)[k] == Chain(h, b)[i..][k - i];
  }

  /** Ancestor-or-self is antisymmetric. */
  lemma {:induction false} ChainAntisymmetric(h: Hierarchy, x: Id, y: Id)
    requires h.Valid()
    requires x in Chain(h, y) && y in Chain(h, x)
    ensures x == y
  {
  }
}

=== FILE: translate.dfy ===
/** Translating the layout engine's result from scope-relative to absolute
    coordinates: `setEdgeLayout`, `setLayout` and the root-edge pass in
    `getElkGraph`. The engine itself is not modelled; its result is an input. */
module Translate {
  import opened Wrappers
  import opened StateTree
  import opened EdgeScope
  import opened Digraph

  datatype Point = Point(x: int, y: int)

  function Add(p: Point, o: Point): Point {
    Point(p.x + o.x, p.y + o.y)
  }

  const Origin: Point := Point(0, 0)

  /** One routed piece of an edge; `bends` is absent when the engine omits `bendPoints`. */
  datatype Section = Section(start: Point, end: Point, bends: Option<seq<Point>>)

  /** A label position as returned by the engine; either coordinate may be missing. */
  datatype LabelPos = LabelPos(x: Option<int>, y: Option<int>)

  /** A laid-out edge. `labels` is absent when the engine returns no label list. */
  datatype ResultEdge = ResultEdge(id: EdgeId, sections: seq<Section>, labels: Option<seq<LabelPos>>)

  /** A laid-out state: its offset relative to its parent, its size, its
      children and the edges attached at its level. */
  datatype ResultNode = ResultNode(
    id: Id,
    x: int,
    y: int,
    width: int,
    height: int,
    children: seq<ResultNode>,
    edges: seq<ResultEdge>)

  /** The laid-out synthetic root: the root-level edges and its children (the
      machine's node first). */
  datatype ResultRoot = ResultRoot(edges: seq<ResultEdge>, children: seq<ResultNode>)

  /** The `layout` record written onto a state: its size and RELATIVE offset. */
  datatype NodeLayout = NodeLayout(width: int, height: int, x: int, y: int)

  /** What is written onto a domain edge: its sections and its label position. */
  datatype EdgeLayout = EdgeLayout(sections: seq<Section>, labelPos: Point)

  /** The state of one translation pass: the absolute origin registered per
      state (the `stateNodeToElkNodeMap` with its `absolutePosition`s) and the
      layout records written so far. */
  datatype Walk = Walk(abs: map<Id, Point>, nodes: map<Id, NodeLayout>, edges: map<EdgeId, EdgeLayout>)

  /** `labels[0].x` on an empty label list throws; the missing root child of
      `children![0]` does too. */
  datatype LayoutError = EmptyLabels(edge: EdgeId) | NoRootChild

  const EmptyWalk: Walk := Walk(map[], map[], map[])

  function ShiftPoints(ps: seq<Point>, o: Point): (r: seq<Point>)
    ensures |r| == |ps|
    ensures forall i :: 0 <= i < |ps| ==> r[i] == Add(ps[i], o)
  {
    seq(|ps|, i requires 0 <= i < |ps| => Add(ps[i], o))
  }

  /** A section moved by `o`: start, end and every bend point; missing bend
      points become the empty list. */
  function ShiftSection(s: Section, o: Point): (r: Section)
    ensures r.start == Add(s.start, o) && r.end == Add(s.end, o)
    ensures r.bends.Some? && |r.bends.value| == |s.bends.GetOr([])|
    ensures forall i :: 0 <= i < |s.bends.GetOr([])| ==> r.bends.value[i] == Add(s.bends.GetOr([])[i], o)
  {
    Section(Add(s.start, o), Add(s.end, o), Some(ShiftPoints(s.bends.GetOr([]), o)))
  }

  function ShiftSections(ss: seq<Section>, o: Point): (r: seq<Section>)
    ensures |r| == |ss|
    ensures forall i :: 0 <= i < |ss| ==> r[i] == ShiftSection(ss[i], o)
  {
    seq(|ss|, i requires 0 <= i < |ss| => ShiftSection(ss[i], o))
  }

  /** Shifting by `a` and then by `b` is shifting by `a + b`: offsets of nested
      scopes compose additively. */
  lemma ShiftSectionsCompose(ss: seq<Section>, a: Point, b: Point)
    ensures ShiftSections(ShiftSections(ss, a), b) == ShiftSections(ss, Add(a, b))
  {
    var l := ShiftSections(ShiftSections(ss, a), b);
    var r := ShiftSections(ss, Add(a, b));
    forall i | 0 <= i < |ss|
      ensures l[i] == r[i]
    {
      var s := ss[i];
      assert ShiftPoints(ShiftPoints(s.bends.GetOr([]), a), b) == ShiftPoints(s.bends.GetOr([]), Add(a, b));
    }
  }

  /** Shifting back by the opposite offset restores every point; only a missing
      bend list comes back as the empty list. */
  lemma ShiftSectionsInverse(ss: seq<Section>, o: Point)
    ensures var back := ShiftSections(ShiftSections(ss, o), Point(-o.x, -o.y));
      && |back| == |ss|
      && forall i :: 0 <= i < |ss| ==>
           back[i] == Section(ss[i].start, ss[i].end, Some(ss[i].bends.GetOr([])))
  {
    var back := ShiftSections(ShiftSections(ss, o), Point(-o.x, -o.y));
    forall i | 0 <= i < |ss|
      ensures back[i] == Section(ss[i].start, ss[i].end, Some(ss[i].bends.GetOr([])))
    {
      var bs := ss[i].bends.GetOr([]);
      assert ShiftPoints(ShiftPoints(bs, o), Point(-o.x, -o.y)) == bs;
    }
  }

  /** `lca && stateNodeToElkNodeMap.get(lca)`: the absolute origin of the
      edge's scope, when the scope is a state already registered in this pass. */
  function ScopeOrigin(edgeScope: map<EdgeId, Scope>, abs: map<Id, Point>, id: EdgeId): (r: Option<Point>)
    ensures r.Some? <==> id in edgeScope && edgeScope[id].NodeScope? && edgeScope[id].id in abs
    ensures r.Some? ==> r.value == abs[edgeScope[id].id]
  {
    if id in edgeScope && edgeScope[id].NodeScope? && edgeScope[id].id in abs
    then Some(abs[edgeScope[id].id])
    else None
  }

  predicate LabelsOk(e: ResultEdge) {
    e.labels != Some([])
  }

  /** `(labels?.[0].x || 0, labels?.[0].y || 0)`; only read when `LabelsOk(e)`,
      since an empty label list throws before this is computed. */
  function RawLabel(e: ResultEdge): Point
  {
    match e.labels
    case Some(ls) => if |ls| > 0 then Point(ls[0].x.GetOr(0), ls[0].y.GetOr(0)) else Origin
    case None => Origin
  }

  /** The body of `setEdgeLayout` for one edge, given its scope's origin: with
      an origin every section point moves by it, without one the sections stay
      as they are; the label moves by the origin or by nothing. */
  function EdgeLayoutFor(e: ResultEdge, origin: Option<Point>): (r: Result<EdgeLayout, LayoutError>)
    ensures r.Failure? <==> e.labels == Some([])
    ensures r.Failure? ==> r.error == EmptyLabels(e.id)
    ensures r.Success? && origin.None? ==> r.value.sections == e.sections
    ensures r.Success? && origin.Some? ==> r.value.sections == ShiftSections(e.sections, origin.value)
    ensures r.Success? && origin.None? ==> r.value.labelPos == RawLabel(e)
    ensures r.Success? && origin.Some? ==> r.value.labelPos == Add(RawLabel(e), origin.value)
  {
    if !LabelsOk(e) then Failure(EmptyLabels(e.id))
    else
      match origin
      case None => Success(EdgeLayout(e.sections, RawLabel(e)))
      case Some(o) => Success(EdgeLayout(ShiftSections(e.sections, o), Add(RawLabel(e), o)))
  }

  /** `setEdgeLayout`: look up the scope's origin in the states registered so
      far and write the edge's translated geometry. */
  function SetEdgeLayout(edgeScope: map<EdgeId, Scope>, w: Walk, e: ResultEdge): (r: Result<Walk, LayoutError>)
    ensures r.Success? <==> LabelsOk(e)
    ensures r.Success? ==> r.value.abs == w.abs && r.value.nodes == w.nodes
    ensures r.Success? ==> r.value.edges == w.edges[e.id := EdgeLayoutFor(e, ScopeOrigin(edgeScope, w.abs, e.id)).value]
  {
    match EdgeLayoutFor(e, ScopeOrigin(edgeScope, w.abs, e.id))
    case Failure(err) => Failure(err)
    case Success(layout) => Success(w.(edges := w.edges[e.id := layout]))
  }

  /** The identifiers of `es[i..]`. */
  function EdgeIds(es: seq<ResultEdge>, i: nat): (r: set<EdgeId>)
    requires i <= |es|
    ensures forall j :: i <= j < |es| ==> es[j].id in r
    decreases |es| - i
  {
    if i == |es| then {} else {es[i].id} + EdgeIds(es, i + 1)
  }

  lemma {:induction false} EdgeIdsExclude(es: seq<ResultEdge>, i: nat, x: EdgeId)
    requires i <= |es|
    requires forall j :: i <= j < |es| ==> es[j].id != x
    ensures x !in EdgeIds(es, i)
    decreases |es| - i
  {
    if i < |es| {
      EdgeIdsExclude(es, i + 1, x);
    }
  }

  /** `edges.forEach(setEdgeLayout)` from position `i` on. */
  function SetEdgeLayouts(edgeScope: map<EdgeId, Scope>, w: Walk, es: seq<ResultEdge>, i: nat): (r: Result<Walk, LayoutError>)
    requires i <= |es|
    ensures r.Success? ==> r.value.abs == w.abs && r.value.nodes == w.nodes
    decreases |es| - i
  {
    if i == |es| then Success(w)
    else
      match SetEdgeLayout(edgeScope, w, es[i])
      case Failure(err) => Failure(err)
      case Success(w1) =>
        SetEdgeLayouts(edgeScope, w1, es, i + 1)
  }

  /** The edge pass fails exactly when some remaining edge has an empty label list. */
  lemma {:induction false} SetEdgeLayoutsSucceeds(edgeScope: map<EdgeId, Scope>, w: Walk, es: seq<ResultEdge>, i: nat)
    requires i <= |es|
    ensures SetEdgeLayouts(edgeScope, w, es, i).Success? <==> forall j :: i <= j < |es| ==> LabelsOk(es[j])
    decreases |es| - i
  {
    if i < |es| {
      var first := SetEdgeLayout(edgeScope, w, es[i]);
      if LabelsOk(es[i]) {
        var w1 := first.value;
        assert SetEdgeLayouts(edgeScope, w, es, i) == SetEdgeLayouts(edgeScope, w1, es, i + 1);
        SetEdgeLayoutsSucceeds(edgeScope, w1, es, i + 1);
        assert (forall j :: i <= j < |es| ==> LabelsOk(es[j])) <==> (forall j :: i + 1 <= j < |es| ==> LabelsOk(es[j]));
      } else {
        assert first.Failure?;
        assert SetEdgeLayouts(edgeScope, w, es, i).Failure?;
      }
    }
  }

  /** The edge pass writes only the identifiers of the remaining edges. */
  lemma {:induction false} SetEdgeLayoutsFrame(edgeScope: map<EdgeId, Scope>, w: Walk, es: seq<ResultEdge>, i: nat, k: EdgeId)
    requires i <= |es|
    requires SetEdgeLayouts(edgeScope, w, es, i).Success?
    requires k !in EdgeIds(es, i)
    ensures MapAgree(w.edges, SetEdgeLayouts(edgeScope, w, es, i).value.edges, k)
    decreases |es| - i
  {
    if i < |es| {
      assert k != es[i].id;
      var w1 := SetEdgeLayout(edgeScope, w, es[i]).value;
      assert SetEdgeLayouts(edgeScope, w, es, i) == SetEdgeLayouts(edgeScope, w1, es, i + 1);
      assert MapAgree(w.edges, w1.edges, k);
      assert k !in EdgeIds(es, i + 1);
      SetEdgeLayoutsFrame(edgeScope, w1, es, i + 1, k);
    }
  }

  /** `m1` and `m2` agree at key `k`: both lack it or both map it to the same value. */
  predicate MapAgree<K, V(==)>(m1: map<K, V>, m2: map<K, V>, k: K) {
    (k in m1 <==> k in m2) && (k in m1 ==> m1[k] == m2[k])
  }

  /** `setLayout`: register the state with its absolute origin (the parent's
      origin plus its own offset), write its layout record, translate the edges
      attached at its level, then visit its children in order. */
  function SetLayout(edgeScope: map<EdgeId, Scope>, w: Walk, n: ResultNode, parentAbs: Point): (r: Result<Walk, LayoutError>)
    decreases n, 1, 0
  {
    var abs := Add(parentAbs, Point(n.x, n.y));
    var w1 := w.(abs := w.abs[n.id := abs], nodes := w.nodes[n.id := NodeLayout(n.width, n.height, n.x, n.y)]);
    match SetEdgeLayouts(edgeScope, w1, n.edges, 0)
    case Failure(err) => Failure(err)
    case Success(w2) => SetChildLayouts(edgeScope, w2, n, 0, abs)
  }

  /** `children.forEach(cn => setLayout(cn, elkNode))` from child `i` on. */
  function SetChildLayouts(edgeScope: map<EdgeId, Scope>, w: Walk, n: ResultNode, i: nat, abs: Point): (r: Result<Walk, LayoutError>)
    requires i <= |n.children|
    decreases n, 0, |n.children| - i
  {
    if i == |n.children| then Success(w)
    else
      match SetLayout(edgeScope, w, n.children[i], abs)
      case Failure(err) => Failure(err)
      case Success(w1) => SetChildLayouts(edgeScope, w1, n, i + 1, abs)
  }

  /** The translation part of `getElkGraph`: first the root-level edges, with
      nothing registered yet, then the machine's node (the first child of the
      synthetic root) with the origin as its parent's position. */
  function GetElkGraphLayout(edgeScope: map<EdgeId, Scope>, root: ResultRoot): (r: Result<Walk, LayoutError>)
  {
    match SetEdgeLayouts(edgeScope, EmptyWalk, root.edges, 0)
    case Failure(err) => Failure(err)
    case Success(w) =>
      if |root.children| == 0 then Failure(NoRootChild)
      else SetLayout(edgeScope, w, root.children[0], Origin)
  }

  // ----- Trees of results: paths, identifier sets, uniqueness -----

  /** Every edge in the subtree has a non-empty label list (or none at all). */
  predicate TreeLabelsOk(n: ResultNode)
    decreases n
  {
    && (forall j :: 0 <= j < |n.edges| ==> LabelsOk(n.edges[j]))
    && (forall i :: 0 <= i < |n.children| ==> TreeLabelsOk(n.children[i]))
  }

  /** `p` is a sequence of child positions leading from `n` to a node. */
  predicate ValidPath(n: ResultNode, p: seq<nat>)
    decreases p
  {
    p == [] || (p[0] < |n.children| && ValidPath(n.children[p[0]], p[1..]))
  }

  function NodeAt(n: ResultNode, p: seq<nat>): ResultNode
    requires ValidPath(n, p)
    decreases p
  {
    if p == [] then n else NodeAt(n.children[p[0]], p[1..])
  }

  /** Sum of the relative offsets of every node on the path, both ends included. */
  function PathSum(n: ResultNode, p: seq<nat>): Point
    requires ValidPath(n, p)
    decreases p
  {
    if p == [] then Point(n.x, n.y) else Add(Point(n.x, n.y), PathSum(n.children[p[0]], p[1..]))
  }

  function IdSet(n: ResultNode): set<Id>
    decreases n, 1, 0
  {
    {n.id} + ChildIdSet(n, 0)
  }

  function ChildIdSet(n: ResultNode, i: nat): set<Id>
    requires i <= |n.children|
    decreases n, 0, |n.children| - i
  {
    if i == |n.children| then {} else IdSet(n.children[i]) + ChildIdSet(n, i + 1)
  }

  /** No two nodes of the subtree share an identifier. */
  predicate UniqueIds(n: ResultNode)
    decreases n, 1, 0
  {
    n.id !in ChildIdSet(n, 0) && ChildrenUniqueIds(n, 0)
  }

  predicate ChildrenUniqueIds(n: ResultNode, i: nat)
    requires i <= |n.children|
    decreases n, 0, |n.children| - i
  {
    i == |n.children| ||
    (UniqueIds(n.children[i]) && IdSet(n.children[i]) !! ChildIdSet(n, i + 1) && ChildrenUniqueIds(n, i + 1))
  }

  function EdgeIdSet(n: ResultNode): set<EdgeId>
    decreases n, 1, 0
  {
    EdgeIds(n.edges, 0) + ChildEdgeIdSet(n, 0)
  }

  function ChildEdgeIdSet(n: ResultNode, i: nat): set<EdgeId>
    requires i <= |n.children|
    decreases n, 0, |n.children| - i
  {
    if i == |n.children| then {} else EdgeIdSet(n.children[i]) + ChildEdgeIdSet(n, i + 1)
  }

  /** No two edges of the subtree share an identifier. */
  predicate UniqueEdgeIds(n: ResultNode)
    decreases n, 1, 0
  {
    && (forall j, k :: 0 <= j < k < |n.edges| ==> n.edges[j].id != n.edges[k].id)
    && EdgeIds(n.edges, 0) !! ChildEdgeIdSet(n, 0)
    && ChildrenUniqueEdgeIds(n, 0)
  }

  predicate ChildrenUniqueEdgeIds(n: ResultNode, i: nat)
    requires i <= |n.children|
    decreases n, 0, |n.children| - i
  {
    i == |n.children| ||
    (UniqueEdgeIds(n.children[i]) && EdgeIdSet(n.children[i]) !! ChildEdgeIdSet(n, i + 1)
     && ChildrenUniqueEdgeIds(n, i + 1))
  }

  // ----- Properties of the walk -----

  /** The walk of a subtree fails exactly when one of its edges has an empty label list. */
  lemma {:induction false} SetLayoutSucceeds(edgeScope: map<EdgeId, Scope>, w: Walk, n: ResultNode, parentAbs: Point)
    ensures SetLayout(edgeScope, w, n, parentAbs).Success? <==> TreeLabelsOk(n)
    decreases n, 1, 0
  {
    var abs := Add(parentAbs, Point(n.x, n.y));
    var w1 := w.(abs := w.abs[n.id := abs], nodes := w.nodes[n.id := NodeLayout(n.width, n.height, n.x, n.y)]);
    SetEdgeLayoutsSucceeds(edgeScope, w1, n.edges, 0);
    var e := SetEdgeLayouts(edgeScope, w1, n.edges, 0);
    if e.Success? {
      SetChildLayoutsSucceed(edgeScope, e.value, n, 0, abs);
    }
  }

  lemma {:induction false} SetChildLayoutsSucceed(edgeScope: map<EdgeId, Scope>, w: Walk, n: ResultNode, i: nat, abs: Point)
    requires i <= |n.children|
    ensures SetChildLayouts(edgeScope, w, n, i, abs).Success? <==>
      forall j :: i <= j < |n.children| ==> TreeLabelsOk(n.children[j])
    decreases n, 0, |n.children| - i
  {
    if i < |n.children| {
      SetLayoutSucceeds(edgeScope, w, n.children[i], abs);
      var c := SetLayout(edgeScope, w, n.children[i], abs);
      if c.Success? {
        SetChildLayoutsSucceed(edgeScope, c.value, n, i + 1, abs);
      }
    }
  }

  /** The walk of a subtree writes origins and layout records only for the
      states of that subtree. */
  lemma {:induction false} SetLayoutKeepsStates(
    edgeScope: map<EdgeId, Scope>, w: Walk, n: ResultNode, parentAbs: Point, k: Id)
    requires SetLayout(edgeScope, w, n, parentAbs).Success?
    ensures var r := SetLayout(edgeScope, w, n, parentAbs).value;
      k !in IdSet(n) ==> MapAgree(w.abs, r.abs, k) && MapAgree(w.nodes, r.nodes, k)
    decreases n, 1, 0
  {
    var abs := Add(parentAbs, Point(n.x, n.y));
    var w1 := w.(abs := w.abs[n.id := abs], nodes := w.nodes[n.id := NodeLayout(n.width, n.height, n.x, n.y)]);
    var w2 := SetEdgeLayouts(edgeScope, w1, n.edges, 0).value;
    SetChildLayoutsKeepStates(edgeScope, w2, n, 0, abs, k);
  }

  lemma {:induction false} SetChildLayoutsKeepStates(
    edgeScope: map<EdgeId, Scope>, w: Walk, n: ResultNode, i: nat, abs: Point, k: Id)
    requires i <= |n.children|
    requires SetChildLayouts(edgeScope, w, n, i, abs).Success?
    ensures var r := SetChildLayouts(edgeScope, w, n, i, abs).value;
      k !in ChildIdSet(n, i) ==> MapAgree(w.abs, r.abs, k) && MapAgree(w.nodes, r.nodes, k)
    decreases n, 0, |n.children| - i
  {
    if i < |n.children| {
      SetLayoutKeepsStates(edgeScope, w, n.children[i], abs, k);
      var w1 := SetLayout(edgeScope, w, n.children[i], abs).value;
      SetChildLayoutsKeepStates(edgeScope, w1, n, i + 1, abs, k);
    }
  }

  /** The walk of a subtree writes edge records only for the edges of that subtree. */
  lemma {:induction false} SetLayoutKeepsEdges(
    edgeScope: map<EdgeId, Scope>, w: Walk, n: ResultNode, parentAbs: Point, ek: EdgeId)
    requires SetLayout(edgeScope, w, n, parentAbs).Success?
    ensures var r := SetLayout(edgeScope, w, n, parentAbs).value;
      ek !in EdgeIdSet(n) ==> MapAgree(w.edges, r.edges, ek)
    decreases n, 1, 0
  {
    var abs := Add(parentAbs, Point(n.x, n.y));
    var w1 := w.(abs := w.abs[n.id := abs], nodes := w.nodes[n.id := NodeLayout(n.width, n.height, n.x, n.y)]);
    var w2 := SetEdgeLayouts(edgeScope, w1, n.edges, 0).value;
    if ek !in EdgeIdSet(n) {
      SetEdgeLayoutsFrame(edgeScope, w1, n.edges, 0, ek);
    }
    SetChildLayoutsKeepEdges(edgeScope, w2, n, 0, abs, ek);
  }

  lemma {:induction false} SetChildLayoutsKeepEdges(
    edgeScope: map<EdgeId, Scope>, w: Walk, n: ResultNode, i: nat, abs: Point, ek: EdgeId)
    requires i <= |n.children|
    requires SetChildLayouts(edgeScope, w, n, i, abs).Success?
    ensures var r := SetChildLayouts(edgeScope, w, n, i, abs).value;
      ek !in ChildEdgeIdSet(n, i) ==> MapAgree(w.edges, r.edges, ek)
    decreases n, 0, |n.children| - i
  {
    if i < |n.children| {
      SetLayoutKeepsEdges(edgeScope, w, n.children[i], abs, ek);
      var w1 := SetLayout(edgeScope, w, n.children[i], abs).value;
      SetChildLayoutsKeepEdges(edgeScope, w1, n, i + 1, abs, ek);
    }
  }

  lemma {:induction false} ChildIdSetContains(n: ResultNode, j: nat, i: nat)
    requires j <= i < |n.children|
    ensures IdSet(n.children[i]) <= ChildIdSet(n, j)
    decreases i - j
  {
    if j < i {
      ChildIdSetContains(n, j + 1, i);
    }
  }

  lemma {:induction false} NodeAtInIdSet(n: ResultNode, p: seq<nat>)
    requires ValidPath(n, p)
    ensures NodeAt(n, p).id in IdSet(n)
    decreases p
  {
    if p != [] {
      NodeAtInIdSet(n.children[p[0]], p[1..]);
      ChildIdSetContains(n, 0, p[0]);
    }
  }

  lemma {:induction false} ChildrenUniqueIdsAt(n: ResultNode, j: nat, i: nat)
    requires j <= i < |n.children|
    requires ChildrenUniqueIds(n, j)
    ensures UniqueIds(n.children[i]) && IdSet(n.children[i]) !! ChildIdSet(n, i + 1)
    ensures ChildrenUniqueIds(n, i + 1)
    decreases i - j
  {
    if j < i {
      ChildrenUniqueIdsAt(n, j + 1, i);
    }
  }

  /** With distinct state identifiers, every state's registered absolute origin
      is the parent origin of the walk plus the sum of the relative offsets on
      the path down to it, and its layout record holds its size and its own
      RELATIVE offset. */
  lemma {:induction false} WalkAbsolute(
    edgeScope: map<EdgeId, Scope>, w: Walk, n: ResultNode, parentAbs: Point, p: seq<nat>)
    requires UniqueIds(n)
    requires ValidPath(n, p)
    requires SetLayout(edgeScope, w, n, parentAbs).Success?
    ensures var r := SetLayout(edgeScope, w, n, parentAbs).value;
      var m := NodeAt(n, p);
      && m.id in r.abs && r.abs[m.id] == Add(parentAbs, PathSum(n, p))
      && m.id in r.nodes && r.nodes[m.id] == NodeLayout(m.width, m.height, m.x, m.y)
    decreases n, 1, 0
  {
    var abs := Add(parentAbs, Point(n.x, n.y));
    var w1 := w.(abs := w.abs[n.id := abs], nodes := w.nodes[n.id := NodeLayout(n.width, n.height, n.x, n.y)]);
    var w2 := SetEdgeLayouts(edgeScope, w1, n.edges, 0).value;
    if p == [] {
      SetChildLayoutsKeepStates(edgeScope, w2, n, 0, abs, n.id);
    } else {
      WalkChildAbsolute(edgeScope, w2, n, 0, abs, p[0], p[1..]);
    }
  }

  lemma {:induction false} WalkChildAbsolute(
    edgeScope: map<EdgeId, Scope>, w: Walk, n: ResultNode, j: nat, abs: Point, i: nat, q: seq<nat>)
    requires j <= i < |n.children|
    requires ChildrenUniqueIds(n, j)
    requires ValidPath(n.children[i], q)
    requires SetChildLayouts(edgeScope, w, n, j, abs).Success?
    ensures var r := SetChildLayouts(edgeScope, w, n, j, abs).value;
      var m := NodeAt(n.children[i], q);
      && m.id in r.abs && r.abs[m.id] == Add(abs, PathSum(n.children[i], q))
      && m.id in r.nodes && r.nodes[m.id] == NodeLayout(m.width, m.height, m.x, m.y)
    decreases n, 0, |n.children| - j
  {
    ChildrenUniqueIdsAt(n, j, j);
    var w1 := SetLayout(edgeScope, w, n.children[j], abs).value;
    if j == i {
      WalkAbsolute(edgeScope, w, n.children[i], abs, q);
      NodeAtInIdSet(n.children[i], q);
      SetChildLayoutsKeepStates(edgeScope, w1, n, i + 1, abs, NodeAt(n.children[i], q).id);
    } else {
      WalkChildAbsolute(edgeScope, w1, n, j + 1, abs, i, q);
    }
  }

  /** With distinct identifiers in the edge list, each edge's record is its
      translation against the origins registered when the pass started. */
  lemma {:induction false} SetEdgeLayoutsPlace(
    edgeScope: map<EdgeId, Scope>, w: Walk, es: seq<ResultEdge>, i: nat, j: nat)
    requires i <= j < |es|
    requires forall a, b :: 0 <= a < b < |es| ==> es[a].id != es[b].id
    requires SetEdgeLayouts(edgeScope, w, es, i).Success?
    ensures var r := SetEdgeLayouts(edgeScope, w, es, i).value;
      && EdgeLayoutFor(es[j], ScopeOrigin(edgeScope, w.abs, es[j].id)).Success?
      && es[j].id in r.edges
      && r.edges[es[j].id] == EdgeLayoutFor(es[j], ScopeOrigin(edgeScope, w.abs, es[j].id)).value
    decreases |es| - i
  {
    var w1 := SetEdgeLayout(edgeScope, w, es[i]).value;
    if i == j {
      EdgeIdsExclude(es, j + 1, es[j].id);
      SetEdgeLayoutsFrame(edgeScope, w1, es, j + 1, es[j].id);
    } else {
      SetEdgeLayoutsPlace(edgeScope, w1, es, i + 1, j);
    }
  }

  lemma {:induction false} ChildEdgeIdSetContains(n: ResultNode, j: nat, i: nat)
    requires j <= i < |n.children|
    ensures EdgeIdSet(n.children[i]) <= ChildEdgeIdSet(n, j)
    decreases i - j
  {
    if j < i {
      ChildEdgeIdSetContains(n, j + 1, i);
    }
  }

  lemma {:induction false} EdgeAtInEdgeIdSet(n: ResultNode, p: seq<nat>, k: nat)
    requires ValidPath(n, p)
    requires k < |NodeAt(n, p).edges|
    ensures NodeAt(n, p).edges[k].id in EdgeIdSet(n)
    decreases p
  {
    if p != [] {
      EdgeAtInEdgeIdSet(n.children[p[0]], p[1..], k);
      ChildEdgeIdSetContains(n, 0, p[0]);
    }
  }

  lemma {:induction false} ChildrenUniqueEdgeIdsAt(n: ResultNode, j: nat, i: nat)
    requires j <= i < |n.children|
    requires ChildrenUniqueEdgeIds(n, j)
    ensures UniqueEdgeIds(n.children[i]) && EdgeIdSet(n.children[i]) !! ChildEdgeIdSet(n, i + 1)
    decreases i - j
  {
    if j < i {
      ChildrenUniqueEdgeIdsAt(n, j + 1, i);
    }
  }

  /** An edge in a subtree whose scope is a state registered before the subtree
      is walked (and lying outside it) is shifted by that state's origin. */
  lemma {:induction false} WalkUsesRegisteredScope(
    edgeScope: map<EdgeId, Scope>, w: Walk, n: ResultNode, parentAbs: Point, p: seq<nat>, k: nat, a: Id)
    requires UniqueEdgeIds(n)
    requires ValidPath(n, p)
    requires k < |NodeAt(n, p).edges|
    requires NodeAt(n, p).edges[k].id in edgeScope
    requires edgeScope[NodeAt(n, p).edges[k].id] == NodeScope(a)
    requires a !in IdSet(n) && a in w.abs
    requires SetLayout(edgeScope, w, n, parentAbs).Success?
    ensures var r := SetLayout(edgeScope, w, n, parentAbs).value;
      var e := NodeAt(n, p).edges[k];
      var layout := EdgeLayoutFor(e, Some(w.abs[a]));
      && layout.Success?
      && e.id in r.edges && r.edges[e.id] == layout.value
    decreases n, 1, 0
  {
    var abs := Add(parentAbs, Point(n.x, n.y));
    var w1 := w.(abs := w.abs[n.id := abs], nodes := w.nodes[n.id := NodeLayout(n.width, n.height, n.x, n.y)]);
    var w2 := SetEdgeLayouts(edgeScope, w1, n.edges, 0).value;
    if p == [] {
      SetEdgeLayoutsPlace(edgeScope, w1, n.edges, 0, k);
      assert n.edges[k].id in EdgeIds(n.edges, 0);
      SetChildLayoutsKeepEdges(edgeScope, w2, n, 0, abs, n.edges[k].id);
    } else {
      ChildWalkUsesRegisteredScope(edgeScope, w2, n, 0, abs, p[0], p[1..], k, a);
    }
  }

  lemma {:induction false} ChildWalkUsesRegisteredScope(
    edgeScope: map<EdgeId, Scope>, w: Walk, n: ResultNode, j: nat, abs: Point, i: nat, q: seq<nat>, k: nat, a: Id)
    requires j <= i < |n.children|
    requires ChildrenUniqueEdgeIds(n, j)
    requires ValidPath(n.children[i], q)
    requires k < |NodeAt(n.children[i], q).edges|
    requires NodeAt(n.children[i], q).edges[k].id in edgeScope
    requires edgeScope[NodeAt(n.children[i], q).edges[k].id] == NodeScope(a)
    requires a !in ChildIdSet(n, j) && a in w.abs
    requires SetChildLayouts(edgeScope, w, n, j, abs).Success?
    ensures var r := SetChildLayouts(edgeScope, w, n, j, abs).value;
      var e := NodeAt(n.children[i], q).edges[k];
      var layout := EdgeLayoutFor(e, Some(w.abs[a]));
      && layout.Success?
      && e.id in r.edges && r.edges[e.id] == layout.value
    decreases n, 0, |n.children| - j
  {
    ChildrenUniqueEdgeIdsAt(n, j, j);
    var w1 := SetLayout(edgeScope, w, n.children[j], abs).value;
    if j == i {
      WalkUsesRegisteredScope(edgeScope, w, n.children[i], abs, q, k, a);
      EdgeAtInEdgeIdSet(n.children[i], q, k);
      SetChildLayoutsKeepEdges(edgeScope, w1, n, i + 1, abs, NodeAt(n.children[i], q).edges[k].id);
    } else {
      SetLayoutKeepsStates(edgeScope, w, n.children[j], abs, a);
      assert ChildrenUniqueEdgeIds(n, j + 1);
      ChildWalkUsesRegisteredScope(edgeScope, w1, n, j + 1, abs, i, q, k, a);
    }
  }

  /** With distinct identifiers, an edge attached at a state, or at any
      descendant of it, whose scope is that state, is shifted by the state's
      absolute origin: a state is registered before its own edges are
      translated and before its children are visited. */
  lemma {:induction false} WalkPlacesEdge(
    edgeScope: map<EdgeId, Scope>, w: Walk, n: ResultNode, parentAbs: Point, p: seq<nat>, k: nat, d: nat)
    requires UniqueIds(n) && UniqueEdgeIds(n)
    requires ValidPath(n, p) && d <= |p| && ValidPath(n, p[..d])
    requires k < |NodeAt(n, p).edges|
    requires NodeAt(n, p).edges[k].id in edgeScope
    requires edgeScope[NodeAt(n, p).edges[k].id] == NodeScope(NodeAt(n, p[..d]).id)
    requires SetLayout(edgeScope, w, n, parentAbs).Success?
    ensures var r := SetLayout(edgeScope, w, n, parentAbs).value;
      var e := NodeAt(n, p).edges[k];
      var layout := EdgeLayoutFor(e, Some(Add(parentAbs, PathSum(n, p[..d]))));
      && layout.Success?
      && e.id in r.edges && r.edges[e.id] == layout.value
    decreases n, 1, 0
  {
    var abs := Add(parentAbs, Point(n.x, n.y));
    var w1 := w.(abs := w.abs[n.id := abs], nodes := w.nodes[n.id := NodeLayout(n.width, n.height, n.x, n.y)]);
    var w2 := SetEdgeLayouts(edgeScope, w1, n.edges, 0).value;
    if p == [] {
      SetEdgeLayoutsPlace(edgeScope, w1, n.edges, 0, k);
      assert n.edges[k].id in EdgeIds(n.edges, 0);
      SetChildLayoutsKeepEdges(edgeScope, w2, n, 0, abs, n.edges[k].id);
    } else if d == 0 {
      assert p[..d] == [];
      assert w2.abs[n.id] == abs == Add(parentAbs, PathSum(n, p[..d]));
      ChildWalkUsesRegisteredScope(edgeScope, w2, n, 0, abs, p[0], p[1..], k, n.id);
    } else {
      var c := n.children[p[0]];
      assert p[..d][1..] == p[1..][..d - 1];
      assert NodeAt(n, p) == NodeAt(c, p[1..]);
      assert NodeAt(n, p[..d]) == NodeAt(c, p[1..][..d - 1]);
      assert PathSum(n, p[..d]) == Add(Point(n.x, n.y), PathSum(c, p[1..][..d - 1]));
      assert Add(parentAbs, PathSum(n, p[..d])) == Add(abs, PathSum(c, p[1..][..d - 1]));
      WalkChildPlacesEdge(edgeScope, w2, n, 0, abs, p[0], p[1..], k, d - 1);
    }
  }

  lemma {:induction false} WalkChildPlacesEdge(
    edgeScope: map<EdgeId, Scope>, w: Walk, n: ResultNode, j: nat, abs: Point, i: nat, q: seq<nat>, k: nat, d: nat)
    requires j <= i < |n.children|
    requires ChildrenUniqueIds(n, j) && ChildrenUniqueEdgeIds(n, j)
    requires ValidPath(n.children[i], q) && d <= |q| && ValidPath(n.children[i], q[..d])
    requires k < |NodeAt(n.children[i], q).edges|
    requires NodeAt(n.children[i], q).edges[k].id in edgeScope
    requires edgeScope[NodeAt(n.children[i], q).edges[k].id] == NodeScope(NodeAt(n.children[i], q[..d]).id)
    requires SetChildLayouts(edgeScope, w, n, j, abs).Success?
    ensures var r := SetChildLayouts(edgeScope, w, n, j, abs).value;
      var e := NodeAt(n.children[i], q).edges[k];
      var layout := EdgeLayoutFor(e, Some(Add(abs, PathSum(n.children[i], q[..d]))));
      && layout.Success?
      && e.id in r.edges && r.edges[e.id] == layout.value
    decreases n, 0, |n.children| - j
  {
    ChildrenUniqueIdsAt(n, j, j);
    ChildrenUniqueEdgeIdsAt(n, j, j);
    var w1 := SetLayout(edgeScope, w, n.children[j], abs).value;
    if j == i {
      WalkPlacesEdge(edgeScope, w, n.children[i], abs, q, k, d);
      EdgeAtInEdgeIdSet(n.children[i], q, k);
      SetChildLayoutsKeepEdges(edgeScope, w1, n, i + 1, abs, NodeAt(n.children[i], q).edges[k].id);
    } else {
      assert ChildrenUniqueIds(n, j + 1) && ChildrenUniqueEdgeIds(n, j + 1);
      WalkChildPlacesEdge(edgeScope, w1, n, j + 1, abs, i, q, k, d);
    }
  }

  // ----- The whole translation pass -----

  /** The pass fails exactly when the synthetic root has no child or some
      translated edge has an empty label list. */
  lemma GetElkGraphLayoutSucceeds(edgeScope: map<EdgeId, Scope>, root: ResultRoot)
    ensures GetElkGraphLayout(edgeScope, root).Success? <==>
      && (forall j :: 0 <= j < |root.edges| ==> LabelsOk(root.edges[j]))
      && |root.children| > 0
      && TreeLabelsOk(root.children[0])
    ensures |root.children| == 0 && (forall j :: 0 <= j < |root.edges| ==> LabelsOk(root.edges[j])) ==>
      GetElkGraphLayout(edgeScope, root) == Failure(NoRootChild)
  {
    SetEdgeLayoutsSucceeds(edgeScope, EmptyWalk, root.edges, 0);
    var w := SetEdgeLayouts(edgeScope, EmptyWalk, root.edges, 0);
    if w.Success? && |root.children| > 0 {
      SetLayoutSucceeds(edgeScope, w.value, root.children[0], Origin);
    }
  }

  /** Absolute origins after the pass: with distinct state identifiers, each
      state's origin is the sum of the relative offsets from the machine's node
      down to it, and its layout record keeps its size and relative offset. */
  lemma AbsoluteOriginIsPathSum(edgeScope: map<EdgeId, Scope>, root: ResultRoot, p: seq<nat>)
    requires GetElkGraphLayout(edgeScope, root).Success?
    requires |root.children| > 0
    requires UniqueIds(root.children[0]) && ValidPath(root.children[0], p)
    ensures var r := GetElkGraphLayout(edgeScope, root).value;
      var m := NodeAt(root.children[0], p);
      && m.id in r.abs && r.abs[m.id] == PathSum(root.children[0], p)
      && m.id in r.nodes && r.nodes[m.id] == NodeLayout(m.width, m.height, m.x, m.y)
  {
    var w := SetEdgeLayouts(edgeScope, EmptyWalk, root.edges, 0).value;
    WalkAbsolute(edgeScope, w, root.children[0], Origin, p);
  }

  lemma {:induction false} PathExtend(n: ResultNode, p: seq<nat>, i: nat)
    requires ValidPath(n, p) && i < |NodeAt(n, p).children|
    ensures ValidPath(n, p + [i])
    ensures NodeAt(n, p + [i]) == NodeAt(n, p).children[i]
    ensures PathSum(n, p + [i]) == Add(PathSum(n, p), Point(NodeAt(n, p + [i]).x, NodeAt(n, p + [i]).y))
    decreases p
  {
    if p != [] {
      assert (p + [i])[1..] == p[1..] + [i];
      PathExtend(n.children[p[0]], p[1..], i);
    }
  }

  /** Each state's absolute origin is its parent's absolute origin plus its own
      relative offset. */
  lemma ChildOriginComposes(edgeScope: map<EdgeId, Scope>, root: ResultRoot, p: seq<nat>, i: nat)
    requires GetElkGraphLayout(edgeScope, root).Success?
    requires |root.children| > 0
    requires UniqueIds(root.children[0]) && ValidPath(root.children[0], p)
    requires i < |NodeAt(root.children[0], p).children|
    ensures var r := GetElkGraphLayout(edgeScope, root).value;
      var parent := NodeAt(root.children[0], p);
      var child := parent.children[i];
      && parent.id in r.abs && child.id in r.abs
      && r.abs[child.id] == Add(r.abs[parent.id], Point(child.x, child.y))
  {
    PathExtend(root.children[0], p, i);
    AbsoluteOriginIsPathSum(edgeScope, root, p);
    AbsoluteOriginIsPathSum(edgeScope, root, p + [i]);
  }

  /** Edge geometry after the pass: with distinct identifiers in the machine's
      subtree, an edge attached at its scope state, or below it, has every
      section point and its label shifted by that state's absolute origin. */
  lemma ScopedEdgeIsShifted(edgeScope: map<EdgeId, Scope>, root: ResultRoot, p: seq<nat>, k: nat, d: nat)
    requires GetElkGraphLayout(edgeScope, root).Success?
    requires |root.children| > 0
    requires UniqueIds(root.children[0]) && UniqueEdgeIds(root.children[0])
    requires ValidPath(root.children[0], p) && d <= |p| && ValidPath(root.children[0], p[..d])
    requires k < |NodeAt(root.children[0], p).edges|
    requires NodeAt(root.children[0], p).edges[k].id in edgeScope
    requires edgeScope[NodeAt(root.children[0], p).edges[k].id] == NodeScope(NodeAt(root.children[0], p[..d]).id)
    ensures var r := GetElkGraphLayout(edgeScope, root).value;
      var e := NodeAt(root.children[0], p).edges[k];
      var origin := PathSum(root.children[0], p[..d]);
      && e.id in r.edges && LabelsOk(e)
      && r.edges[e.id].sections == ShiftSections(e.sections, origin)
      && r.edges[e.id].labelPos == Add(RawLabel(e), origin)
  {
    var w := SetEdgeLayouts(edgeScope, EmptyWalk, root.edges, 0).value;
    WalkPlacesEdge(edgeScope, w, root.children[0], Origin, p, k, d);
    assert Add(Origin, PathSum(root.children[0], p[..d])) == PathSum(root.children[0], p[..d]);
  }

  /** Root-level edges are translated before any state is registered, so their
      sections and label keep the engine's coordinates. */
  lemma RootEdgesKeepEngineCoordinates(edgeScope: map<EdgeId, Scope>, root: ResultRoot, j: nat)
    requires GetElkGraphLayout(edgeScope, root).Success?
    requires j < |root.edges|
    requires forall a, b :: 0 <= a < b < |root.edges| ==> root.edges[a].id != root.edges[b].id
    requires |root.children| > 0 && root.edges[j].id !in EdgeIdSet(root.children[0])
    ensures var r := GetElkGraphLayout(edgeScope, root).value;
      var e := root.edges[j];
      && e.id in r.edges && LabelsOk(e)
      && r.edges[e.id].sections == e.sections
      && r.edges[e.id].labelPos == RawLabel(e)
  {
    GetElkGraphLayoutUnfold(edgeScope, root);
    RootEdgeSurvivesWalk(edgeScope, root.edges, j, root.children[0]);
  }

  lemma RootEdgeSurvivesWalk(edgeScope: map<EdgeId, Scope>, es: seq<ResultEdge>, j: nat, n: ResultNode)
    requires j < |es|
    requires forall a, b :: 0 <= a < b < |es| ==> es[a].id != es[b].id
    requires SetEdgeLayouts(edgeScope, EmptyWalk, es, 0).Success?
    requires SetLayout(edgeScope, SetEdgeLayouts(edgeScope, EmptyWalk, es, 0).value, n, Origin).Success?
    requires es[j].id !in EdgeIdSet(n)
    ensures var r := SetLayout(edgeScope, SetEdgeLayouts(edgeScope, EmptyWalk, es, 0).value, n, Origin).value;
      && EdgeLayoutFor(es[j], None).Success?
      && es[j].id in r.edges && r.edges[es[j].id] == EdgeLayoutFor(es[j], None).value
  {
    SetEdgeLayoutsPlace(edgeScope, EmptyWalk, es, 0, j);
    var w := SetEdgeLayouts(edgeScope, EmptyWalk, es, 0).value;
    assert ScopeOrigin(edgeScope, EmptyWalk.abs, es[j].id).None?;
    SetLayoutKeepsEdges(edgeScope, w, n, Origin, es[j].id);
  }

  /** A successful pass is the walk of the machine's node after the root edges. */
  lemma GetElkGraphLayoutUnfold(edgeScope: map<EdgeId, Scope>, root: ResultRoot)
    requires GetElkGraphLayout(edgeScope, root).Success?
    ensures SetEdgeLayouts(edgeScope, EmptyWalk, root.edges, 0).Success? && |root.children| > 0
    ensures GetElkGraphLayout(edgeScope, root)
      == SetLayout(edgeScope, SetEdgeLayouts(edgeScope, EmptyWalk, root.edges, 0).value, root.children[0], Origin)
  {
  }
}

=== FILE: wrappers.dfy ===
/** Optional values and failure-carrying results shared by the layout modules. */
module Wrappers {

  /** An optional value; `None` plays the part of JavaScript's `undefined`. */
  datatype Option<+T> = None | Some(value: T) {

    /** The wrapped value, or `default` when there is none (the `??` operator). */
    function GetOr(default: T): T {
      match this
      case Some(v) => v
      case None => default
    }
  }

  /** The outcome of a computation that may stop with an error (a thrown exception). */
  datatype Result<+T, +E> = Success(value: T) | Failure(error: E)
}
